=== FILE: README.md ===
# Translation core of Infinity for Reddit, modelled in Dafny

The app translates Reddit content through a remote language model in two ways:

- **One text at a time** (`TranslateContent`). The prompt and the text are sent. The reply's text is found in one of two response envelopes. If the reply holds a `<step3_refined_translation>` span, that span is taken out.
- **A whole post with its comments in one request** (`BatchTranslateContent`). Comments are packed into a JSON payload under an 80000-character budget. The model's JSON answer is cut out of its reply and read into a `BatchTranslationResult`.

Both paths share `TranslationCache`. It is an LRU map of at most 500 entries, keyed by the MD5 digest of the original text. Null or empty inputs make `get` and `put` do nothing.

The model is functional:
- JSON is a datatype.
- Parsing and printing JSON text are the two functions of a `Codec`.
- The MD5 digest is a function parameter.
- An HTTP exchange is a `HttpReply` value.
- A translation call returns one outcome, the request it sent (if any), and the cache afterwards.
- The LRU store is a sequence of entries, least recently used first.

Modules follow the program's structure:

| module | models |
|---|---|
| `JavaText` | null references, exceptions, `String.length` in UTF-16 code units, `String.trim`, `indexOf`/`lastIndexOf`, decimal rendering |
| `Json` | JSON values and the Android `org.json` accessors the code calls |
| `Envelope` | the two response envelopes, and an independent path-walking account of them |
| `LruStore` | `android.util.LruCache` with entries of size one |
| `TranslationCache` | the 500-entry cache and its guards |
| `Remote` | the request sent, the reply received, and the status failure text |
| `BatchInput` | comment budget, payload, truncation report, and batch cache key |
| `BatchResponse` | code-fence stripping, response and result parsing, and the cache value |
| `BatchTranslate` | the batch outcome and the batch cache-then-network flow |
| `RefinedTag` | the `<step3_refined_translation>` regular expression, in backtracking order |
| `TranslateContent` | single-text extraction, outcome, and cache-then-network flow |

Strings are sequences of Unicode characters. Java's `length()` counts UTF-16 code units, so the 80000-character budget counts a character outside the Basic Multilingual Plane (an emoji, say) as two.

Where the code and its comments disagree, the model follows the code:
- `getTruncatedCount` is documented as returning the number of truncated comments. It returns the number of comments that fit.
- `translateBatchWithCache` carries a comment saying an unreadable cached value leads to a fresh translation. Its `catch` is unreachable, because `parseTranslationJson` already turns every failure into null, so the listener receives a success with a null result.

## Model

| member | source | states |
|---|---|---|
| JavaText.JavaLength | app/src/main/java/ml/docilealligator/infinityforreddit/translation/BatchTranslateContent.java:181-182 | `String.length()` counts UTF-16 code units: between one and two per character, zero only for the empty string |
| JavaText.JavaLengthAppend | app/src/main/java/ml/docilealligator/infinityforreddit/translation/BatchTranslateContent.java:192 | lengths add up over concatenation |
| JavaText.JavaLengthOfBmpText | app/src/main/java/ml/docilealligator/infinityforreddit/translation/BatchTranslateContent.java:192 | text inside the Basic Multilingual Plane has one code unit per character |
| JavaText.JavaLengthOfSupplementaryText | app/src/main/java/ml/docilealligator/infinityforreddit/translation/BatchTranslateContent.java:192 | supplementary characters (emoji) count two code units each |
| TranslationCache.New | app/src/main/java/ml/docilealligator/infinityforreddit/translation/TranslationCache.java:23-26 | a new cache is empty, satisfies the cache invariant, and has the 500-entry bound |
| TranslationCache.Get | app/src/main/java/ml/docilealligator/infinityforreddit/translation/TranslationCache.java:33-39 | null or empty text gives null and an unchanged store; otherwise the answer is what is stored under the text's digest; a hit keeps the size, the invariant, and a non-empty value |
| TranslationCache.Put | app/src/main/java/ml/docilealligator/infinityforreddit/translation/TranslationCache.java:46-53 | a null or empty original or translation changes nothing; overwriting removes the old entry, keeps every other entry in order and appends the new one as most recent; a new text below 500 is appended to the unchanged entries; at 500 it drops exactly the least recently used entry and appends the new one |
| TranslationCache.Clear | app/src/main/java/ml/docilealligator/infinityforreddit/translation/TranslationCache.java:78-80 | size becomes 0 and every get answers null |
| TranslationCache.Size | app/src/main/java/ml/docilealligator/infinityforreddit/translation/TranslationCache.java:86-88 | the size of a valid cache never exceeds 500 |
| TranslationCache.GetAfterPut | app/src/main/java/ml/docilealligator/infinityforreddit/translation/TranslationCache.java:33-53 | after put(t, v), get(t) answers v |
| TranslationCache.PutKeepsOtherTexts | app/src/main/java/ml/docilealligator/infinityforreddit/translation/TranslationCache.java:60-73 | with an injective digest, a put that evicts nothing leaves every other text's translation in place |
| TranslationCache.GetKeepsStored | app/src/main/java/ml/docilealligator/infinityforreddit/translation/TranslationCache.java:37-38 | a get changes recency only, never what any text maps to |
| TranslationCache.HitBecomesMostRecent | app/src/main/java/ml/docilealligator/infinityforreddit/translation/TranslationCache.java:33-39 | a hit keeps the size and the invariant, and leaves exactly the other entries in their old order followed by the entry read |
| TranslationCache.HitSurvivesNextEviction | app/src/main/java/ml/docilealligator/infinityforreddit/translation/TranslationCache.java:21-25 | in a full cache, an entry just read is not the one evicted by the next new text |
| LruStore.Lookup | app/src/main/java/ml/docilealligator/infinityforreddit/translation/TranslationCache.java:38 | a found value is stored under the key; null exactly when no entry has the key |
| LruStore.Remove | app/src/main/java/ml/docilealligator/infinityforreddit/translation/TranslationCache.java:52 | the entries without the key, with one entry fewer when the key was there and keys distinct |
| LruStore.RemoveKeepsOrder | app/src/main/java/ml/docilealligator/infinityforreddit/translation/TranslationCache.java:52 | with distinct keys, removing the key at position i leaves the entries before and after it in their old order |
| LruStore.TrimToSize | app/src/main/java/ml/docilealligator/infinityforreddit/translation/TranslationCache.java:25 | keeps the most recent entries up to the bound, keys staying distinct |
| LruStore.Get | app/src/main/java/ml/docilealligator/infinityforreddit/translation/TranslationCache.java:38 | a hit returns the stored value and moves that entry to the most recent end; a miss changes nothing |
| LruStore.GetKeepsContents | app/src/main/java/ml/docilealligator/infinityforreddit/translation/TranslationCache.java:38 | after a get every key looks up the same value as before |
| LruStore.Put | app/src/main/java/ml/docilealligator/infinityforreddit/translation/TranslationCache.java:52 | the new entry is the most recent; the bound and distinct keys hold; replacing removes the old entry and keeps the others in order; a new key is appended, and at the bound the least recent entry is evicted |
| LruStore.PutContents | app/src/main/java/ml/docilealligator/infinityforreddit/translation/TranslationCache.java:52 | after a put the key maps to the new value; other keys keep theirs, except the evicted least recent key |
| LruStore.RecentSurvivesEviction | app/src/main/java/ml/docilealligator/infinityforreddit/translation/TranslationCache.java:25 | at the bound, a new key evicts the least recent entry and the most recent one keeps its value |
| LruStore.EvictAll | app/src/main/java/ml/docilealligator/infinityforreddit/translation/TranslationCache.java:79 | no entry is left and every lookup answers null |
| Envelope.OutputText | app/src/main/java/ml/docilealligator/infinityforreddit/translation/BatchTranslateContent.java:216-230 | the nested checks for `output[0].content[0].text` give what a walk along that path gives: text, absent for a missing part, or a fault for a part of the wrong kind |
| Envelope.ChoicesText | app/src/main/java/ml/docilealligator/infinityforreddit/translation/BatchTranslateContent.java:233-244 | the same for `choices[0].message.content` |
| Envelope.ResponseText | app/src/main/java/ml/docilealligator/infinityforreddit/translation/BatchTranslateContent.java:213-248 | text at the first path is used whatever `choices` holds; the second path is read only when the first is missing a part; a part of the wrong kind on the first path is a fault; found text always comes from one of the two paths |
| Remote.BuildRequest | app/src/main/java/ml/docilealligator/infinityforreddit/translation/TranslateContent.java:95-118 | the request has the bearer key, the model, `stream=false`, and one user message with one `input_text` part holding the text |
| Remote.StatusFailure | app/src/main/java/ml/docilealligator/infinityforreddit/translation/TranslateContent.java:135-138 | the failure text is the prefix and the status code, followed by ` - ` and the error body when there is one |
| BatchInput.ValidComments | app/src/main/java/ml/docilealligator/infinityforreddit/translation/BatchTranslateContent.java:184-191 | only valid comments (not placeholders, non-empty text), never more than the input holds |
| BatchInput.ValidCommentsKeepsExactlyValid | app/src/main/java/ml/docilealligator/infinityforreddit/translation/BatchTranslateContent.java:184-191 | a comment is kept exactly when it is in the list and valid: none is dropped, nothing else gets in |
| BatchInput.ValidCommentsAppend | app/src/main/java/ml/docilealligator/infinityforreddit/translation/BatchTranslateContent.java:184-191 | the valid comments of two lists joined are those of the first followed by those of the second, so the list order is kept |
| BatchInput.Budget | app/src/main/java/ml/docilealligator/infinityforreddit/translation/BatchTranslateContent.java:184-197 | from a running total, the included comments are a prefix of the valid ones that fits, and the next valid one would not |
| BatchInput.IncludedComments | app/src/main/java/ml/docilealligator/infinityforreddit/translation/BatchTranslateContent.java:181-197 | the payload's comments are exactly the longest prefix of the valid comments whose lengths, added to title and body, stay within 80000; inclusion stops at the first overflow |
| BatchInput.BudgetCutIsUnique | app/src/main/java/ml/docilealligator/infinityforreddit/translation/BatchTranslateContent.java:192-195 | only one cut meets both budget conditions, so the budgeter and the count agree |
| BatchInput.SupplementaryTextCountsTwice | app/src/main/java/ml/docilealligator/infinityforreddit/translation/BatchTranslateContent.java:192-194 | lengths are UTF-16 code units: a lone comment of supplementary characters whose doubled count takes the total over 80000 is left out |
| BatchInput.TruncatedCount | app/src/main/java/ml/docilealligator/infinityforreddit/translation/BatchTranslateContent.java:349-371 | -1 exactly when every valid comment fits or there is none; otherwise the number of comments the payload includes, which is below the number of valid comments |
| BatchInput.FinalCut | app/src/main/java/ml/docilealligator/infinityforreddit/translation/BatchTranslateContent.java:363-370 | the count the loop ends with is the payload's, and it covers all valid comments exactly when they all fit |
| BatchInput.CommentsObject | app/src/main/java/ml/docilealligator/infinityforreddit/translation/BatchTranslateContent.java:196 | the comments object has one key per included id; a null id throws; with distinct ids it has one entry per comment |
| BatchInput.CommentsObjectHoldsTexts | app/src/main/java/ml/docilealligator/infinityforreddit/translation/BatchTranslateContent.java:196 | each included comment that no later comment shares its id with has its text stored under its id; where ids repeat the last text wins |
| BatchInput.BuildInput | app/src/main/java/ml/docilealligator/infinityforreddit/translation/BatchTranslateContent.java:174-204 | the payload holds the title and body (null written as ""), and the included comments keyed by id; it throws exactly when an included comment has a null id |
| BatchInput.PayloadCarriesCommentTexts | app/src/main/java/ml/docilealligator/infinityforreddit/translation/BatchTranslateContent.java:184-199 | the payload's `comments` object holds each included comment's text under its id (the last one's for a repeated id) |
| BatchInput.BuildInputJson | app/src/main/java/ml/docilealligator/infinityforreddit/translation/BatchTranslateContent.java:174-204 | a lawful codec reads the printed payload back as the payload object; a thrown exception gives `{}` |
| BatchInput.PayloadHoldsEveryIncludedComment | app/src/main/java/ml/docilealligator/infinityforreddit/translation/BatchTranslateContent.java:184-197 | with distinct non-null ids, the payload's comment map has as many entries as the count the truncation report gives |
| BatchInput.BatchCacheKey | app/src/main/java/ml/docilealligator/infinityforreddit/translation/BatchTranslateContent.java:321-344 | the batch key always starts with `batch_` |
| BatchInput.KeyIds | app/src/main/java/ml/docilealligator/infinityforreddit/translation/BatchTranslateContent.java:324-328 | the ids part of the hashed text is empty for no comments, and otherwise empty or ending with the comma closing the last id |
| BatchInput.CacheKeyPreimage | app/src/main/java/ml/docilealligator/infinityforreddit/translation/BatchTranslateContent.java:322-329 | the hashed text is the post id (`null` for none) and a vertical bar for no comments; it always starts with those, and otherwise ends with a comma |
| BatchInput.CacheKeyIgnoresText | app/src/main/java/ml/docilealligator/infinityforreddit/translation/BatchTranslateContent.java:321-330 | the key depends only on the post id and on each comment's id and placeholder flag, never on comment text |
| BatchInput.CacheKeyCoversEveryComment | app/src/main/java/ml/docilealligator/infinityforreddit/translation/BatchTranslateContent.java:324-328 | every non-placeholder comment with an id adds `id,` to the hashed text, even when its text is empty or over budget; the others add nothing |
| BatchInput.AddedCommentChangesKey | app/src/main/java/ml/docilealligator/infinityforreddit/translation/BatchTranslateContent.java:321-330 | with an injective digest, one more such comment gives a different key |
| BatchResponse.BraceSpan | app/src/main/java/ml/docilealligator/infinityforreddit/translation/BatchTranslateContent.java:277-283 | with a `{` before a `}` the result starts with `{` and ends with `}`; otherwise the text is kept |
| BatchResponse.BraceSpanIsOutermost | app/src/main/java/ml/docilealligator/infinityforreddit/translation/BatchTranslateContent.java:277-281 | the span kept occurs in the text with no `{` before it and no `}` after it |
| BatchResponse.DropOpeningFence | app/src/main/java/ml/docilealligator/infinityforreddit/translation/BatchTranslateContent.java:267-271 | a leading "```json", or else "```", followed by the result is the text; without a leading fence the text is kept |
| BatchResponse.DropClosingFence | app/src/main/java/ml/docilealligator/infinityforreddit/translation/BatchTranslateContent.java:272-274 | the result followed by a trailing "```" is the text; without one the text is kept |
| BatchResponse.StripFence | app/src/main/java/ml/docilealligator/infinityforreddit/translation/BatchTranslateContent.java:265-275 | the stripped text is never longer than the input and never blank at either end |
| BatchResponse.ExtractJson | app/src/main/java/ml/docilealligator/infinityforreddit/translation/BatchTranslateContent.java:264-284 | after fence stripping, the result is an object-shaped span when a brace pair exists, and the stripped text otherwise |
| BatchResponse.ExtractJsonFromText | app/src/main/java/ml/docilealligator/infinityforreddit/translation/BatchTranslateContent.java:262-263 | a null text gives `{}` |
| BatchResponse.ExtractJsonKeepsObjectText | app/src/main/java/ml/docilealligator/infinityforreddit/translation/BatchTranslateContent.java:262-284 | a text starting with `{` and ending with `}` comes back unchanged |
| BatchResponse.ExtractJsonUnwrapsFence | app/src/main/java/ml/docilealligator/infinityforreddit/translation/BatchTranslateContent.java:265-275 | such a text wrapped in a `json` code block, or a plain one, comes back without the fence |
| BatchResponse.ExtractJsonIsIdempotent | app/src/main/java/ml/docilealligator/infinityforreddit/translation/BatchTranslateContent.java:262-284 | when the text has a `{` before a `}`, extracting again changes nothing |
| BatchResponse.StripFenceKeepsBracePairs | app/src/main/java/ml/docilealligator/infinityforreddit/translation/BatchTranslateContent.java:265-275 | trimming and dropping code fences keeps exactly the texts that have a `{` before a `}` |
| BatchResponse.CommentTexts | app/src/main/java/ml/docilealligator/infinityforreddit/translation/BatchTranslateContent.java:297-303 | every key of the response's comments is copied, with string values unchanged |
| BatchResponse.ParseTranslationJson | app/src/main/java/ml/docilealligator/infinityforreddit/translation/BatchTranslateContent.java:289-316 | null exactly when the text is not an object or its `comments` is not one. Otherwise: the originals come from the post; a missing title becomes ""; a missing or empty body becomes null; every comment key is kept with its value as `getString` reads it, so a string comes through verbatim; the body is never "" |
| BatchResponse.ParseResponse | app/src/main/java/ml/docilealligator/infinityforreddit/translation/BatchTranslateContent.java:209-257 | a result only comes from an object response whose envelope held text, parsed after JSON extraction |
| BatchResponse.ParseResponseByPaths | app/src/main/java/ml/docilealligator/infinityforreddit/translation/BatchTranslateContent.java:213-257 | `output[0].content[0].text` is used when present; `choices[0].message.content` only when the first path is missing a part; null when the first path has a part of the wrong kind or neither yields text |
| BatchResponse.CacheJson | app/src/main/java/ml/docilealligator/infinityforreddit/translation/BatchTranslateContent.java:75-82 | the cache object has exactly the keys `post_title`, `post_body` and `comments` |
| BatchResponse.CacheValue | app/src/main/java/ml/docilealligator/infinityforreddit/translation/BatchTranslateContent.java:75-83 | a lawful codec reads the cache value back as the cache object, and it is never empty |
| BatchResponse.CacheValueRoundTrip | app/src/main/java/ml/docilealligator/infinityforreddit/translation/BatchTranslateContent.java:75-83 | with a lawful codec, parsing a cache value with the same post gives back the result: title, body (null written as "" and read back as null), and every comment |
| BatchResponse.ParsedResultRoundTrips | app/src/main/java/ml/docilealligator/infinityforreddit/translation/BatchTranslateContent.java:289-316 | every result the parser produces survives being cached and read back |
| BatchTranslate.DecideBatch | app/src/main/java/ml/docilealligator/infinityforreddit/translation/BatchTranslateContent.java:148-167 | success exactly for a 2xx reply with a body that yields a result. Otherwise `错误: ` and the message for an exception, `翻译失败: ` and the status (plus the error body) for a non-2xx reply, and `无法解析翻译响应` for an unreadable body |
| BatchTranslate.BatchRequest | app/src/main/java/ml/docilealligator/infinityforreddit/translation/BatchTranslateContent.java:123-143 | the batch request carries the prompt followed by the payload text, unstreamed, as the user's message |
| BatchTranslate.TranslateBatchWithCache | app/src/main/java/ml/docilealligator/infinityforreddit/translation/BatchTranslateContent.java:53-94 | a hit makes no request, only refreshes the entry's recency in the cache, and delivers the parsed cached value, null exactly when it does not parse; a miss sends the batch request; a success is stored under the key as its cache value; a failure leaves the cache untouched |
| BatchTranslate.RepeatedBatchIsServedFromCache | app/src/main/java/ml/docilealligator/infinityforreddit/translation/BatchTranslateContent.java:58-83 | after a success, the same post with comments of the same ids is answered from the cache with the same outcome and no request |
| RefinedTag.SpaceRunIsMaximal | app/src/main/java/ml/docilealligator/infinityforreddit/translation/TranslateContent.java:166 | the run counted for regex `\s*` is all `\s`, and the character after it is not: the greedy quantifier first takes the longest run |
| RefinedTag.LazyEnd | app/src/main/java/ml/docilealligator/infinityforreddit/translation/TranslateContent.java:166 | a group end found lazily lies at or after the start and is followed by `\s*` and the closing tag |
| RefinedTag.LazyEndIsFirst | app/src/main/java/ml/docilealligator/infinityforreddit/translation/TranslateContent.java:166 | no earlier group end is followed by `\s*` and the closing tag: the lazy group is the shortest one |
| RefinedTag.GreedyThenLazy | app/src/main/java/ml/docilealligator/infinityforreddit/translation/TranslateContent.java:166 | a found group starts within the leading spaces and ends where the closing part matches |
| RefinedTag.MatchAt | app/src/main/java/ml/docilealligator/infinityforreddit/translation/TranslateContent.java:166-169 | a match at a position needs the opening tag there and a non-empty group followed by the closing part |
| RefinedTag.FindFrom | app/src/main/java/ml/docilealligator/infinityforreddit/translation/TranslateContent.java:168-169 | a found group is non-empty and closed |
| RefinedTag.Refine | app/src/main/java/ml/docilealligator/infinityforreddit/translation/TranslateContent.java:166-174 | without a match the text comes back unchanged; a refined translation is shorter than the text by at least both tags |
| RefinedTag.RefineFindsFirstTaggedSpan | app/src/main/java/ml/docilealligator/infinityforreddit/translation/TranslateContent.java:166-171 | with the first opening tag and the first closing tag after it, and content other than whitespace between them, the result is that content trimmed |
| RefinedTag.RefineOfBlankContent | app/src/main/java/ml/docilealligator/infinityforreddit/translation/TranslateContent.java:166-171 | whitespace-only content before the only closing tag still matches, and the result is empty |
| RefinedTag.RefineWithoutOpenTag | app/src/main/java/ml/docilealligator/infinityforreddit/translation/TranslateContent.java:168-174 | text without the opening tag is returned unchanged |
| RefinedTag.RefineWithoutCloseTag | app/src/main/java/ml/docilealligator/infinityforreddit/translation/TranslateContent.java:168-174 | text with no closing tag after an opening tag's content is returned unchanged |
| TranslateContent.ExtractTranslation | app/src/main/java/ml/docilealligator/infinityforreddit/translation/TranslateContent.java:148-208 | envelope text gives its refined span; no envelope text gives the whole raw body, not a failure; a non-object body or a part of the wrong kind gives null |
| TranslateContent.ExtractTranslationByPaths | app/src/main/java/ml/docilealligator/infinityforreddit/translation/TranslateContent.java:154-204 | text at `output[0].content[0].text` decides the result and `choices` is never consulted; otherwise the second path, then the raw body |
| TranslateContent.DecideText | app/src/main/java/ml/docilealligator/infinityforreddit/translation/TranslateContent.java:123-144 | success exactly for a 2xx reply with a body whose extraction is non-null and non-empty. Otherwise `Could not extract translation from response`, `Translation failed: ` with the status (and error body), or `Error: ` with the message |
| TranslateContent.TextRequest | app/src/main/java/ml/docilealligator/infinityforreddit/translation/TranslateContent.java:101-118 | the text sent is exactly the prompt followed by the text, unstreamed, as the user's message |
| TranslateContent.TranslateWithCache | app/src/main/java/ml/docilealligator/infinityforreddit/translation/TranslateContent.java:61-86 | a hit delivers the cached string with no request and only refreshes the entry's recency in the cache; a miss sends the request and stores a success before delivering it; a failure leaves the cache unchanged; a delivered translation is never empty |
| TranslateContent.RepeatedTextIsServedFromCache | app/src/main/java/ml/docilealligator/infinityforreddit/translation/TranslateContent.java:66-78 | after a translation succeeds, the same text is answered from the cache with the same outcome and no request |

## Left out

- The network: Retrofit, OkHttp, the endpoint interface and the request timeouts. A call's reply is a `HttpReply` value. An exception raised while reading the error body counts as an exception reply.
- Threads: the executor and the handler. The single listener callback is the one outcome each flow returns.
- JSON text: `org.json`'s tokenizer and printer are the functions of a `Codec`. The round-trip lemmas assume a lawful codec, meaning one whose parser reads back what its printer wrote.
- Key order: `org.json` object key order is unobservable in the model, because objects are maps.
- MD5 (`MessageDigest`) and its `hashCode` fallback: the digest is a function parameter. Lemmas that need distinct texts to get distinct keys assume the digest is injective.
- Prompt texts: the two prompts are opaque strings in the configuration.
- `TranslationResultHolder`, the activities, adapters, fragments and preferences: these are UI and hand-off code.
- Comment nesting depth: only the UI uses it.
- `BatchInput.TruncatedCount`: Java's 32-bit `int` running total is unbounded here. It could only wrap with more than 2^31 UTF-16 code units of text.
- `LruStore`: `LruCache`'s synchronisation, hit and miss counters, and `entryRemoved` hooks are not modelled.
- `RefinedTag.RefineFindsFirstTaggedSpan`: stated only for content that contains a character other than whitespace. Whitespace-only content is covered separately by `RefinedTag.RefineOfBlankContent`, and only when no later closing tag follows. With a later closing tag, the backtracking match can take the first closing tag into the group.

=== FILE: batch_input.dfy ===
/**
 Packaging a post and its comments into one batch request: which comments fit
 the 80000-character budget, the JSON payload they make, the report of how many
 fit, and the text the batch cache key is hashed from.
 */
module BatchInput {
  import opened JavaText
  import opened Json
  import TranslationCache

  const MaxCharLimit: int := 80000

  /** A comment as the batch code sees it. Nesting depth matters only to the UI and is left out. */
  datatype Comment = Comment(id: Nullable<string>, rawText: Nullable<string>, isPlaceholder: bool)

  /** A post: its id, title and plain self text, each possibly null. */
  datatype Post = Post(id: Nullable<string>, title: Nullable<string>, selfTextPlain: Nullable<string>)

  /** A comment worth translating: not a placeholder, with non-empty text. */
  predicate IsValid(c: Comment) {
    !c.isPlaceholder && !NullOrEmpty(c.rawText)
  }

  predicate AllValid(cs: seq<Comment>) {
    forall i :: 0 <= i < |cs| ==> IsValid(cs[i])
  }

  /** The valid comments, in their original order. */
  function ValidComments(cs: seq<Comment>): (vs: seq<Comment>)
    ensures AllValid(vs) && |vs| <= |cs|
  {
    if |cs| == 0 then []
    else
      var last := cs[|cs| - 1];
      ValidComments(cs[..|cs| - 1]) + (if IsValid(last) then [last] else [])
  }

  /** Exactly the valid comments are kept: none is dropped and nothing else gets in. */
  lemma {:induction false} ValidCommentsKeepsExactlyValid(cs: seq<Comment>)
    ensures forall c :: c in ValidComments(cs) <==> c in cs && IsValid(c)
    decreases |cs|
  {
    if |cs| > 0 {
      var last := cs[|cs| - 1];
      assert cs == cs[..|cs| - 1] + [last];
      ValidCommentsKeepsExactlyValid(cs[..|cs| - 1]);
    }
  }

  function TextLength(c: Comment): nat {
    LengthOrZero(c.rawText)
  }

  /** The total text length of some comments. */
  function Chars(cs: seq<Comment>): nat {
    if |cs| == 0 then 0 else Chars(cs[..|cs| - 1]) + TextLength(cs[|cs| - 1])
  }

  /** Characters the post itself uses up: title plus body, a null counting as empty. */
  function BaseChars(post: Post): nat {
    LengthOrZero(post.title) + LengthOrZero(post.selfTextPlain)
  }

  /** The valid comments of a concatenation are those of each part, in order. */
  lemma {:induction false} ValidCommentsAppend(a: seq<Comment>, b: seq<Comment>)
    ensures ValidComments(a + b) == ValidComments(a) + ValidComments(b)
    decreases |b|
  {
    if |b| == 0 {
      assert a + b == a;
    } else {
      assert (a + b)[..|a + b| - 1] == a + b[..|b| - 1];
      ValidCommentsAppend(a, b[..|b| - 1]);
    }
  }

  lemma {:induction false} CharsAppend(a: seq<Comment>, b: seq<Comment>)
    ensures Chars(a + b) == Chars(a) + Chars(b)
    decreases |b|
  {
    if |b| == 0 {
      assert a + b == a;
    } else {
      assert (a + b)[..|a + b| - 1] == a + b[..|b| - 1];
      CharsAppend(a, b[..|b| - 1]);
    }
  }

  lemma {:induction false} CharsOfPrefixGrow(vs: seq<Comment>, i: nat, j: nat)
    requires i <= j <= |vs|
    ensures Chars(vs[..i]) <= Chars(vs[..j])
    decreases j - i
  {
    if i < j {
      CharsOfPrefixGrow(vs, i, j - 1);
      assert vs[..j][..j - 1] == vs[..j - 1];
    }
  }

  /** `n` valid comments fit after `base` characters, and `n + 1` would not (unless there are no more). */
  ghost predicate CutAt(base: int, vs: seq<Comment>, n: nat) {
    && n <= |vs|
    && (n > 0 ==> base + Chars(vs[..n]) <= MaxCharLimit)
    && (n < |vs| ==> base + Chars(vs[..n + 1]) > MaxCharLimit)
  }

  /**
   The loop of `buildInputJson` from a running total: skip invalid comments, add
   each valid one's length, and stop at the first that takes the total over the limit.
   The result is the longest prefix of the valid comments that keeps within it.
   */
  function Budget(total: int, cs: seq<Comment>): (included: seq<Comment>)
    ensures |included| <= |ValidComments(cs)|
    ensures included == ValidComments(cs)[..|included|]
    ensures CutAt(total, ValidComments(cs), |included|)
    decreases |cs|
  {
    if |cs| == 0 then []
    else
      var c := cs[0];
      ValidCommentsOfCons(c, cs[1..]);
      assert [c] + cs[1..] == cs;
      if !IsValid(c) then
        assert ValidComments(cs) == ValidComments(cs[1..]);
        Budget(total, cs[1..])
      else
        var t := total + TextLength(c);
        var vs := ValidComments(cs[1..]);
        if t > MaxCharLimit then
          CutAtFirst(total, c, vs);
          []
        else
          var rest := Budget(t, cs[1..]);
          CutCons(total, c, vs, |rest|);
          [c] + rest
  }

  lemma ValidCommentsOfCons(c: Comment, cs: seq<Comment>)
    ensures ValidComments([c] + cs) == (if IsValid(c) then [c] else []) + ValidComments(cs)
  {
    ValidCommentsAppend([c], cs);
    assert [c][..0] == [];
  }

  lemma ConsPrefix(c: Comment, vs: seq<Comment>, n: nat)
    requires n <= |vs|
    ensures ([c] + vs)[..n + 1] == [c] + vs[..n]
    ensures Chars([c] + vs[..n]) == TextLength(c) + Chars(vs[..n])
  {
    CharsAppend([c], vs[..n]);
    assert [c][..0] == [];
  }

  /** A first comment that overflows on its own leaves the cut at zero. */
  lemma CutAtFirst(total: int, c: Comment, vs: seq<Comment>)
    requires total + TextLength(c) > MaxCharLimit
    ensures CutAt(total, [c] + vs, 0)
  {
    ConsPrefix(c, vs, 0);
  }

  /** A first comment that fits moves the cut of the rest one place along. */
  lemma CutCons(total: int, c: Comment, vs: seq<Comment>, n: nat)
    requires total + TextLength(c) <= MaxCharLimit
    requires CutAt(total + TextLength(c), vs, n)
    ensures ([c] + vs)[..n + 1] == [c] + vs[..n]
    ensures CutAt(total, [c] + vs, n + 1)
  {
    ConsPrefix(c, vs, n);
    if n < |vs| {
      ConsPrefix(c, vs, n + 1);
    }
  }

  /**
   The comments `buildInputJson` puts in the payload: exactly the longest in-order
   prefix of the valid comments whose lengths, added to the title and body, stay
   within 80000 characters. Inclusion stops at the first comment that overflows,
   even when a later one would still fit.
   */
  function IncludedComments(post: Post, comments: seq<Comment>): (included: seq<Comment>)
    ensures AllValid(included)
    ensures |included| <= |ValidComments(comments)|
    ensures included == ValidComments(comments)[..|included|]
    ensures |included| > 0 ==> BaseChars(post) + Chars(included) <= MaxCharLimit
    ensures |included| < |ValidComments(comments)| ==>
              BaseChars(post) + Chars(ValidComments(comments)[..|included| + 1]) > MaxCharLimit
  {
    Budget(BaseChars(post), comments)
  }

  /**
   Lengths are Java's UTF-16 code units: text of supplementary characters (emoji,
   say) counts two per character, so a lone comment that overflows by that count
   is left out even when its character count would fit.
   */
  lemma SupplementaryTextCountsTwice(post: Post, c: Comment)
    requires IsValid(c)
    requires forall i :: 0 <= i < |c.rawText.value| ==> c.rawText.value[i] as int > 0xFFFF
    requires BaseChars(post) + 2 * |c.rawText.value| > MaxCharLimit
    ensures IncludedComments(post, [c]) == []
  {
    JavaLengthOfSupplementaryText(c.rawText.value);
    assert ValidComments([c]) == [c];
    assert Chars([c]) == TextLength(c) by { assert [c][..0] == []; }
  }

  /** At most one cut of the valid comments meets both budget conditions. */
  lemma BudgetCutIsUnique(base: int, vs: seq<Comment>, n: nat, m: nat)
    requires n <= |vs| && m <= |vs|
    requires n > 0 ==> base + Chars(vs[..n]) <= MaxCharLimit
    requires n < |vs| ==> base + Chars(vs[..n + 1]) > MaxCharLimit
    requires m > 0 ==> base + Chars(vs[..m]) <= MaxCharLimit
    requires m < |vs| ==> base + Chars(vs[..m + 1]) > MaxCharLimit
    ensures n == m
  {
    if n < m {
      CharsOfPrefixGrow(vs, n + 1, m);
    } else if m < n {
      CharsOfPrefixGrow(vs, m + 1, n);
    }
  }

  lemma ValidCommentsStep(comments: seq<Comment>, i: nat)
    requires i < |comments|
    ensures ValidComments(comments[..i + 1]) ==
              ValidComments(comments[..i]) + (if IsValid(comments[i]) then [comments[i]] else [])
  {
    assert comments[..i + 1][..i] == comments[..i];
  }

  /** The total length of some comments grows by the length of one more. */
  lemma CharsSnoc(before: seq<Comment>, c: Comment)
    ensures Chars(before + [c]) == Chars(before) + TextLength(c)
  {
    assert (before + [c])[..|before|] == before;
  }

  /** A cut short of the end leaves no room for all comments. */
  lemma CutLeavesNoRoom(base: int, before: seq<Comment>, c: Comment, n: nat)
    requires n < |before|
    requires base + Chars(before[..n + 1]) > MaxCharLimit
    ensures base + Chars(before + [c]) > MaxCharLimit
  {
    CharsSnoc(before, c);
    assert before[..|before|] == before;
    CharsOfPrefixGrow(before, n + 1, |before|);
  }

  /** One more valid comment that still fits: the cut can only have been at the end, and moves past it. */
  lemma CutAdvances(base: int, before: seq<Comment>, c: Comment, n: nat)
    requires CutAt(base, before, n)
    requires base + Chars(before + [c]) <= MaxCharLimit
    ensures n == |before| && CutAt(base, before + [c], n + 1)
  {
    if n < |before| {
      CutLeavesNoRoom(base, before, c, n);
    }
    assert (before + [c])[..n + 1] == before + [c];
  }

  /** One more valid comment that overflows: the cut stays where it was. */
  lemma CutStays(base: int, before: seq<Comment>, c: Comment, n: nat)
    requires CutAt(base, before, n)
    requires base + Chars(before + [c]) > MaxCharLimit
    ensures CutAt(base, before + [c], n)
  {
    var after := before + [c];
    assert after[..n] == before[..n];
    if n < |before| {
      assert after[..n + 1] == before[..n + 1];
    } else {
      assert after[..n + 1] == after;
    }
  }

  /**
   `getTruncatedCount`: -1 when every valid comment fits (or there is none);
   otherwise the number of comments that fit, which is the number `buildInputJson`
   includes, not the number dropped.
   */
  method TruncatedCount(post: Post, comments: seq<Comment>) returns (r: int)
    ensures r == -1 <==>
              |ValidComments(comments)| == 0
              || BaseChars(post) + Chars(ValidComments(comments)) <= MaxCharLimit
    ensures r == -1 <==> |IncludedComments(post, comments)| == |ValidComments(comments)|
    ensures r != -1 ==> r == |IncludedComments(post, comments)| && r < |ValidComments(comments)|
  {
    var base := BaseChars(post);
    var totalChars := base;
    var includedCount := 0;
    var totalValidCount := 0;
    for i := 0 to |comments|
      invariant totalValidCount == |ValidComments(comments[..i])|
      invariant totalChars == base + Chars(ValidComments(comments[..i]))
      invariant CutAt(base, ValidComments(comments[..i]), includedCount)
    {
      var c := comments[i];
      ValidCommentsStep(comments, i);
      if IsValid(c) {
        ghost var before := ValidComments(comments[..i]);
        CharsSnoc(before, c);
        totalValidCount := totalValidCount + 1;
        totalChars := totalChars + TextLength(c);
        if totalChars <= MaxCharLimit {
          CutAdvances(base, before, c, includedCount);
          includedCount := includedCount + 1;
        } else {
          CutStays(base, before, c, includedCount);
        }
      } else {
        assert ValidComments(comments[..i + 1]) == ValidComments(comments[..i]);
      }
    }
    assert comments[..|comments|] == comments;
    FinalCut(post, comments, includedCount);
    r := if totalValidCount > includedCount then includedCount else -1;
  }

  /** The cut the loop ends with is the budgeter's, and it is total exactly when everything fits. */
  lemma FinalCut(post: Post, comments: seq<Comment>, n: nat)
    requires CutAt(BaseChars(post), ValidComments(comments), n)
    ensures n == |IncludedComments(post, comments)|
    ensures n == |ValidComments(comments)| <==>
              |ValidComments(comments)| == 0
              || BaseChars(post) + Chars(ValidComments(comments)) <= MaxCharLimit
  {
    var vs := ValidComments(comments);
    var inc := IncludedComments(post, comments);
    BudgetCutIsUnique(BaseChars(post), vs, n, |inc|);
    assert vs[..|vs|] == vs;
    if n < |vs| {
      CharsOfPrefixGrow(vs, n + 1, |vs|);
    }
  }

  // The payload.

  predicate IdsPresent(cs: seq<Comment>) {
    forall i :: 0 <= i < |cs| ==> cs[i].id.NonNull?
  }

  predicate DistinctIds(cs: seq<Comment>) {
    forall i, j :: 0 <= i < j < |cs| ==> cs[i].id != cs[j].id
  }

  /** The ids of the comments that have one. */
  function Ids(cs: seq<Comment>): set<string> {
    if |cs| == 0 then {}
    else
      var last := cs[|cs| - 1];
      Ids(cs[..|cs| - 1]) + (if last.id.NonNull? then {last.id.value} else {})
  }

  /** No later comment shares comment `i`'s id, so the text `put` leaves under that id is comment `i`'s. */
  predicate LastWithId(cs: seq<Comment>, i: nat)
    requires i < |cs|
  {
    forall j :: i < j < |cs| ==> cs[j].id != cs[i].id
  }

  /**
   The `comments` object: `put(id, text)` for each included comment in order, so a
   repeated id keeps its last text; a null id makes `put` throw.
   */
  function CommentsObject(included: seq<Comment>): (r: Try<map<string, Json>>)
    requires AllValid(included)
    ensures r.Ok? <==> IdsPresent(included)
    ensures r.Ok? ==> r.value.Keys == Ids(included)
    ensures r.Ok? ==> forall k :: k in r.value ==> r.value[k].JStr?
    ensures r.Ok? && DistinctIds(included) ==> |r.value| == |included|
  {
    if |included| == 0 then Ok(map[])
    else
      var front := included[..|included| - 1];
      var last := included[|included| - 1];
      match CommentsObject(front)
      case Thrown => Thrown
      case Ok(m) =>
        if last.id.Null? then Thrown
        else
          FreshLastId(included);
          Ok(m[last.id.value := JStr(last.rawText.value)])
  }

  /**
   Each id holds the text of the last included comment with that id; with
   distinct ids, every comment's text is stored under its own id.
   */
  lemma {:induction false} CommentsObjectHoldsTexts(included: seq<Comment>, i: nat)
    requires AllValid(included) && CommentsObject(included).Ok?
    requires i < |included| && LastWithId(included, i)
    ensures included[i].id.NonNull?
    ensures var m := CommentsObject(included).value;
            included[i].id.value in m && m[included[i].id.value] == JStr(included[i].rawText.value)
    decreases |included|
  {
    var front := included[..|included| - 1];
    var last := included[|included| - 1];
    if i < |front| {
      assert included[i].id != last.id;
      assert LastWithId(front, i) by {
        forall j | i < j < |front| ensures front[j].id != front[i].id {
          assert front[j] == included[j];
        }
      }
      CommentsObjectHoldsTexts(front, i);
    }
  }

  lemma FreshLastId(cs: seq<Comment>)
    requires |cs| > 0 && IdsPresent(cs)
    ensures DistinctIds(cs) ==> cs[|cs| - 1].id.value !in Ids(cs[..|cs| - 1])
  {
    var front := cs[..|cs| - 1];
    var k := cs[|cs| - 1].id.value;
    if DistinctIds(cs) && k in Ids(front) {
      IdsOfPresent(front, k);
    }
  }

  lemma {:induction false} IdsOfPresent(cs: seq<Comment>, k: string)
    requires IdsPresent(cs) && k in Ids(cs)
    ensures exists i :: 0 <= i < |cs| && cs[i].id == NonNull(k)
    decreases |cs|
  {
    var last := cs[|cs| - 1];
    if last.id != NonNull(k) {
      IdsOfPresent(cs[..|cs| - 1], k);
      var i :| 0 <= i < |cs| - 1 && cs[..|cs| - 1][i].id == NonNull(k);
      assert cs[i].id == NonNull(k);
    }
  }

  /** The title or body as put in the payload: a null becomes the empty string. */
  function OrEmpty(s: Nullable<string>): string {
    if s.NonNull? then s.value else ""
  }

  /**
   The payload object of `buildInputJson`: the post's title and body and the
   included comments by id; it throws (and the JSON text becomes "{}") when an
   included comment has a null id.
   */
  function BuildInput(post: Post, comments: seq<Comment>): (r: Try<Json>)
    ensures r.Ok? <==> IdsPresent(IncludedComments(post, comments))
    ensures r.Ok? ==>
              && r.value.JObj?
              && r.value.fields.Keys == {"post_title", "post_body", "comments"}
              && r.value.fields["post_title"] == JStr(OrEmpty(post.title))
              && r.value.fields["post_body"] == JStr(OrEmpty(post.selfTextPlain))
              && r.value.fields["comments"].JObj?
              && r.value.fields["comments"].fields.Keys == Ids(IncludedComments(post, comments))
  {
    match CommentsObject(IncludedComments(post, comments))
    case Thrown => Thrown
    case Ok(m) =>
      Ok(JObj(map[
        "post_title" := JStr(OrEmpty(post.title)),
        "post_body" := JStr(OrEmpty(post.selfTextPlain)),
        "comments" := JObj(m)]))
  }

  /**
   The payload's `comments` object holds each included comment's text under its
   id; where ids repeat, the last such comment's text.
   */
  lemma PayloadCarriesCommentTexts(post: Post, comments: seq<Comment>, i: nat)
    requires BuildInput(post, comments).Ok?
    requires i < |IncludedComments(post, comments)| && LastWithId(IncludedComments(post, comments), i)
    ensures var c := IncludedComments(post, comments)[i];
            var m := BuildInput(post, comments).value.fields["comments"].fields;
            && c.id.NonNull? && c.rawText.NonNull?
            && c.id.value in m && m[c.id.value] == JStr(c.rawText.value)
  {
    CommentsObjectHoldsTexts(IncludedComments(post, comments), i);
  }

  /**
   `buildInputJson`: the printed payload, which a lawful codec reads back as the
   payload object, or "{}" when building it threw.
   */
  function BuildInputJson(c: Codec, post: Post, comments: seq<Comment>): (r: string)
    ensures BuildInput(post, comments).Thrown? ==> r == "{}"
    ensures Lawful(c) && BuildInput(post, comments).Ok? ==>
              ParseObject(c, r).Ok? && JObj(ParseObject(c, r).value) == BuildInput(post, comments).value
  {
    match BuildInput(post, comments)
    case Ok(j) => c.stringify(j)
    case Thrown => "{}"
  }

  /**
   When the valid comments carry distinct non-null ids, the payload holds one entry
   per included comment, so its size is the count `getTruncatedCount` reports
   whenever that count is not -1.
   */
  lemma PayloadHoldsEveryIncludedComment(post: Post, comments: seq<Comment>)
    requires IdsPresent(ValidComments(comments)) && DistinctIds(ValidComments(comments))
    ensures BuildInput(post, comments).Ok?
    ensures |BuildInput(post, comments).value.fields["comments"].fields| == |IncludedComments(post, comments)|
  {
    var vs := ValidComments(comments);
    var inc := IncludedComments(post, comments);
    assert forall i :: 0 <= i < |inc| ==> inc[i] == vs[i];
  }

  // The cache key.

  /** `id + ","` for each non-placeholder comment with an id, in list order: empty, or ending in a comma. */
  function KeyIds(cs: seq<Comment>): (r: string)
    ensures |r| == 0 || r[|r| - 1] == ','
    ensures |cs| == 0 ==> r == ""
  {
    if |cs| == 0 then ""
    else
      var last := cs[|cs| - 1];
      KeyIds(cs[..|cs| - 1]) + (if !last.isPlaceholder && last.id.NonNull? then last.id.value + "," else "")
  }

  /** The text `buildCacheKey` hashes: the post id (`null` for none), `|`, then the comment ids, each closed by a comma. */
  function CacheKeyPreimage(post: Post, comments: seq<Comment>): (r: string)
    ensures StartsWith(r, Show(post.id) + "|")
    ensures |r| == |Show(post.id)| + 1 || r[|r| - 1] == ','
    ensures |comments| == 0 ==> r == Show(post.id) + "|"
  {
    Show(post.id) + "|" + KeyIds(comments)
  }

  /** `buildCacheKey`: `batch_` followed by the hex MD5 digest of the preimage. */
  function BatchCacheKey(md5: string -> string, post: Post, comments: seq<Comment>): (key: string)
    ensures StartsWith(key, "batch_")
  {
    "batch_" + md5(CacheKeyPreimage(post, comments))
  }

  /**
   The key depends only on the post id and on each comment's id and placeholder
   flag: comment texts, empty or not, within the budget or not, play no part.
   */
  lemma {:induction false} CacheKeyIgnoresText(md5: string -> string, post: Post, a: seq<Comment>, b: seq<Comment>)
    requires |a| == |b|
    requires forall i :: 0 <= i < |a| ==> a[i].id == b[i].id && a[i].isPlaceholder == b[i].isPlaceholder
    ensures BatchCacheKey(md5, post, a) == BatchCacheKey(md5, post, b)
  {
    KeyIdsIgnoreText(a, b);
  }

  lemma {:induction false} KeyIdsIgnoreText(a: seq<Comment>, b: seq<Comment>)
    requires |a| == |b|
    requires forall i :: 0 <= i < |a| ==> a[i].id == b[i].id && a[i].isPlaceholder == b[i].isPlaceholder
    ensures KeyIds(a) == KeyIds(b)
    decreases |a|
  {
    if |a| > 0 {
      KeyIdsIgnoreText(a[..|a| - 1], b[..|b| - 1]);
    }
  }

  /**
   Every non-placeholder comment with an id extends the preimage by `id + ","`,
   whatever its text: an empty comment, or one the budget drops, still changes the key.
   */
  lemma CacheKeyCoversEveryComment(post: Post, comments: seq<Comment>, c: Comment)
    ensures !c.isPlaceholder && c.id.NonNull? ==>
              CacheKeyPreimage(post, comments + [c]) == CacheKeyPreimage(post, comments) + c.id.value + ","
    ensures c.isPlaceholder || c.id.Null? ==>
              CacheKeyPreimage(post, comments + [c]) == CacheKeyPreimage(post, comments)
  {
    assert (comments + [c])[..|comments|] == comments;
  }

  /** With an injective digest, adding such a comment always gives a different key. */
  lemma AddedCommentChangesKey(md5: string -> string, post: Post, comments: seq<Comment>, c: Comment)
    requires TranslationCache.Injective(md5)
    requires !c.isPlaceholder && c.id.NonNull?
    ensures BatchCacheKey(md5, post, comments + [c]) != BatchCacheKey(md5, post, comments)
  {
    CacheKeyCoversEveryComment(post, comments, c);
    var p := CacheKeyPreimage(post, comments);
    assert |p + c.id.value + ","| > |p|;
  }
}

=== FILE: batch_response.dfy ===
/**
 Reading a batch translation back: locating the model's text in the response,
 cutting the JSON object out of it, turning that object into a result, and the
 cache value that result is stored as.
 */
module BatchResponse {
  import opened JavaText
  import opened Json
  import opened Envelope
  import BatchInput

  /** `BatchTranslationResult`. The translated title is never null; the translated body may be. */
  datatype BatchResult = BatchResult(
    originalTitle: Nullable<string>,
    translatedTitle: string,
    originalBody: Nullable<string>,
    translatedBody: Nullable<string>,
    translatedComments: map<string, string>)

  const JsonFence: string := "```json"
  const Fence: string := "```"

  /** Drop a leading "```json", or else a leading "```": what is dropped and what is kept make up the text. */
  function DropOpeningFence(t: string): (r: string)
    ensures |r| <= |t|
    ensures StartsWith(t, JsonFence) ==> t == JsonFence + r
    ensures StartsWith(t, Fence) && !StartsWith(t, JsonFence) ==> t == Fence + r
    ensures !StartsWith(t, Fence) ==> r == t
  {
    if StartsWith(t, JsonFence) then t[|JsonFence|..]
    else if StartsWith(t, Fence) then t[|Fence|..]
    else t
  }

  /** Drop a trailing "```": what is kept, followed by the fence, is the text. */
  function DropClosingFence(u: string): (r: string)
    ensures |r| <= |u|
    ensures EndsWith(u, Fence) ==> u == r + Fence
    ensures !EndsWith(u, Fence) ==> r == u
  {
    if EndsWith(u, Fence) then u[..|u| - |Fence|] else u
  }

  /** Trim, drop a leading and a trailing code fence, and trim again: never longer, and never blank at either end. */
  function StripFence(text: string): (r: string)
    ensures |r| <= |text|
    ensures |r| == 0 || (!Blank(r[0]) && !Blank(r[|r| - 1]))
  {
    Trim(DropClosingFence(DropOpeningFence(Trim(text))))
  }

  /** Some `{` comes before some `}`. */
  predicate HasBracePair(t: string) {
    exists i, j :: 0 <= i < j < |t| && t[i] == '{' && t[j] == '}'
  }

  /** Text that starts with `{` and ends with `}`, as the text of a JSON object does. */
  predicate ObjectShaped(j: string) {
    |j| > 0 && j[0] == '{' && j[|j| - 1] == '}'
  }

  /**
   The span from the first `{` to the last `}` when the first comes before the
   last; otherwise the text as it is.
   */
  function BraceSpan(t: string): (r: string)
    ensures HasBracePair(t) ==> ObjectShaped(r)
    ensures !HasBracePair(t) ==> r == t
  {
    var start := IndexOf(t, '{');
    var end := LastIndexOf(t, '}');
    if start >= 0 && end > start then
      t[start..end + 1]
    else
      t
  }

  predicate OccursAt(t: string, r: string, i: int) {
    0 <= i && i + |r| <= |t| && t[i..i + |r|] == r
  }

  /** The span kept is the outermost one: no `{` before it and no `}` after it. */
  lemma BraceSpanIsOutermost(t: string)
    requires HasBracePair(t)
    ensures exists i :: && OccursAt(t, BraceSpan(t), i)
                        && (forall k :: 0 <= k < i ==> t[k] != '{')
                        && (forall k :: i + |BraceSpan(t)| <= k < |t| ==> t[k] != '}')
  {
    var i := IndexOf(t, '{');
    assert OccursAt(t, BraceSpan(t), i);
  }

  /** `extractJsonFromText` on a non-null text: strip a code fence, then keep the outermost braces. */
  function ExtractJson(text: string): (r: string)
    ensures HasBracePair(StripFence(text)) ==> ObjectShaped(r)
    ensures !HasBracePair(StripFence(text)) ==> r == StripFence(text)
  {
    BraceSpan(StripFence(text))
  }

  /** `extractJsonFromText`: a null text gives the empty object's text. */
  function ExtractJsonFromText(text: Nullable<string>): (r: string)
    ensures text.Null? ==> r == "{}"
    ensures text.NonNull? ==> r == ExtractJson(text.value)
  {
    match text
    case Null => "{}"
    case NonNull(t) => ExtractJson(t)
  }

  /** Text that already starts with `{` and ends with `}` comes back unchanged. */
  lemma ExtractJsonKeepsObjectText(j: string)
    requires ObjectShaped(j)
    ensures ExtractJson(j) == j
  {
    StripFenceKeepsObjectText(j);
    BraceSpanKeepsObjectText(j);
  }

  lemma StripFenceKeepsObjectText(j: string)
    requires ObjectShaped(j)
    ensures StripFence(j) == j
  {
    TrimKeepsNonBlankEnds(j);
    assert !StartsWith(j, JsonFence) by { assert j[0] != JsonFence[0]; }
    assert !StartsWith(j, Fence) by { assert j[0] != Fence[0]; }
    assert !EndsWith(j, Fence) by { assert j[|j| - 1] != Fence[|Fence| - 1]; }
  }

  lemma BraceSpanKeepsObjectText(j: string)
    requires ObjectShaped(j)
    ensures BraceSpan(j) == j
  {
    assert HasBracePair(j) by { assert j[0] == '{' && j[|j| - 1] == '}'; }
    assert IndexOf(j, '{') == 0;
    assert LastIndexOf(j, '}') == |j| - 1;
    assert j[0..|j|] == j;
  }

  /** A JSON object wrapped in a "```json" or a plain "```" code block comes back without the fence. */
  lemma ExtractJsonUnwrapsFence(j: string)
    requires ObjectShaped(j)
    ensures ExtractJson("```json\n" + j + "\n```") == j
    ensures ExtractJson("```\n" + j + "\n```") == j
  {
    var withJson := "```json\n" + j + "\n```";
    var plain := "```\n" + j + "\n```";
    assert withJson == JsonFence + "\n" + j + "\n```";
    assert plain == Fence + "\n" + j + "\n```";
    FenceStripsTo(JsonFence, j);
    FenceStripsTo(Fence, j);
    ObjectTextSurvivesBraceSpan(withJson, j);
    ObjectTextSurvivesBraceSpan(plain, j);
  }

  lemma ObjectTextSurvivesBraceSpan(text: string, j: string)
    requires ObjectShaped(j)
    requires StripFence(text) == j
    ensures ExtractJson(text) == j
  {
    BraceSpanKeepsObjectText(j);
  }

  lemma FenceStripsTo(opening: string, j: string)
    requires opening == JsonFence || opening == Fence
    requires ObjectShaped(j)
    ensures StripFence(opening + "\n" + j + "\n```") == j
  {
    var s := opening + "\n" + j + "\n```";
    var u := "\n" + j + "\n```";
    var v := "\n" + j + "\n";
    assert Trim(s) == s by {
      assert s[0] == '`' && s[|s| - 1] == '`';
      TrimKeepsNonBlankEnds(s);
    }
    assert DropOpeningFence(s) == u by {
      assert s == opening + u;
      OpeningFenceDropped(opening, u);
    }
    assert DropClosingFence(u) == v by {
      assert u == v + Fence;
      ClosingFenceDropped(v);
    }
    assert Trim(v) == j by {
      TrimIgnoresBlankPadding("\n", j, "\n");
      TrimKeepsNonBlankEnds(j);
    }
  }

  lemma OpeningFenceDropped(opening: string, u: string)
    requires opening == JsonFence || opening == Fence
    requires |u| > 0 && u[0] == '\n'
    ensures DropOpeningFence(opening + u) == u
  {
    var s := opening + u;
    if opening == JsonFence {
      assert s[..|JsonFence|] == JsonFence;
    } else {
      assert s[3] == '\n';
      assert s[..|Fence|] == Fence;
    }
  }

  lemma ClosingFenceDropped(v: string)
    ensures DropClosingFence(v + Fence) == v
  {
    var u := v + Fence;
    assert u[|u| - |Fence|..] == Fence;
    assert u[..|u| - |Fence|] == v;
  }

  predicate NoBraces(s: string) {
    forall i :: 0 <= i < |s| ==> s[i] != '{' && s[i] != '}'
  }

  /** Padding without braces on either side neither adds nor removes a `{` before a `}`. */
  lemma {:induction false} BracePairThroughPadding(a: string, m: string, b: string)
    requires NoBraces(a) && NoBraces(b)
    ensures HasBracePair(a + m + b) <==> HasBracePair(m)
  {
    var t := a + m + b;
    assert forall k :: 0 <= k < |a| ==> t[k] == a[k];
    assert forall k :: |a| + |m| <= k < |t| ==> t[k] == b[k - |a| - |m|];
    if HasBracePair(m) {
      var i, j :| 0 <= i < j < |m| && m[i] == '{' && m[j] == '}';
      assert t[|a| + i] == '{' && t[|a| + j] == '}';
    }
    if HasBracePair(t) {
      var i, j :| 0 <= i < j < |t| && t[i] == '{' && t[j] == '}';
      assert |a| <= i < j < |a| + |m|;
      assert m[i - |a|] == '{' && m[j - |a|] == '}';
    }
  }

  lemma BlankHasNoBraces(s: string)
    requires AllBlank(s)
    ensures NoBraces(s)
  {
  }

  /** Cutting brace-free ends off a text neither adds nor removes a `{` before a `}`. */
  lemma SliceKeepsBracePairs(t: string, i: nat, j: nat)
    requires i <= j <= |t| && NoBraces(t[..i]) && NoBraces(t[j..])
    ensures HasBracePair(t[i..j]) <==> HasBracePair(t)
  {
    BracePairThroughPadding(t[..i], t[i..j], t[j..]);
    assert t[..i] + t[i..j] + t[j..] == t;
  }

  lemma TrimKeepsBracePairs(s: string)
    ensures HasBracePair(Trim(s)) <==> HasBracePair(s)
  {
    var t := TrimStart(s);
    var i := |s| - |t|;
    BlankHasNoBraces(s[..i]);
    SliceKeepsBracePairs(s, i, |s|);
    var r := TrimEnd(t);
    BlankHasNoBraces(t[|r|..]);
    SliceKeepsBracePairs(t, 0, |r|);
  }

  lemma OpeningFenceKeepsBracePairs(t: string)
    ensures HasBracePair(DropOpeningFence(t)) <==> HasBracePair(t)
  {
    var u := DropOpeningFence(t);
    if StartsWith(t, JsonFence) {
      assert NoBraces(JsonFence);
      BracePairThroughPadding(JsonFence, u, "");
      assert JsonFence + u + "" == t;
    } else if StartsWith(t, Fence) {
      assert NoBraces(Fence);
      BracePairThroughPadding(Fence, u, "");
      assert Fence + u + "" == t;
    }
  }

  lemma ClosingFenceKeepsBracePairs(u: string)
    ensures HasBracePair(DropClosingFence(u)) <==> HasBracePair(u)
  {
    var r := DropClosingFence(u);
    if EndsWith(u, Fence) {
      assert NoBraces(Fence);
      BracePairThroughPadding("", r, Fence);
      assert "" + r + Fence == u;
    }
  }

  /** Trimming and dropping fences removes no brace: the stripped text has a `{` before a `}` exactly when the text does. */
  lemma StripFenceKeepsBracePairs(text: string)
    ensures HasBracePair(StripFence(text)) <==> HasBracePair(text)
  {
    TrimKeepsBracePairs(text);
    OpeningFenceKeepsBracePairs(Trim(text));
    ClosingFenceKeepsBracePairs(DropOpeningFence(Trim(text)));
    TrimKeepsBracePairs(DropClosingFence(DropOpeningFence(Trim(text))));
  }

  /** When the text holds a `{` before a `}`, the result is an object text that extraction leaves alone. */
  lemma ExtractJsonIsIdempotent(text: string)
    requires HasBracePair(text)
    ensures ExtractJson(ExtractJson(text)) == ExtractJson(text)
  {
    StripFenceKeepsBracePairs(text);
    var j := ExtractJson(text);
    assert ObjectShaped(j);
    ExtractJsonKeepsObjectText(j);
  }

  /** `getString` on every key of the comments object: each key with its value's text. */
  function CommentTexts(c: Codec, o: map<string, Json>): (m: map<string, string>)
    ensures m.Keys == o.Keys
    ensures forall k :: k in o && o[k].JStr? ==> m[k] == o[k].s
  {
    map k | k in o :: Coerce(c, o[k])
  }

  /**
   `parseTranslationJson`: null when the text is not an object or its `comments`
   is present but not an object. Otherwise the originals come from the post, a
   missing title becomes "", a missing or empty body becomes null, and every key
   of `comments` is kept.
   */
  function ParseTranslationJson(c: Codec, jsonStr: string, post: BatchInput.Post): (r: Nullable<BatchResult>)
    ensures r.NonNull? <==>
              && ParseObject(c, jsonStr).Ok?
              && ("comments" in ParseObject(c, jsonStr).value ==> ParseObject(c, jsonStr).value["comments"].JObj?)
    ensures r.NonNull? ==> r.value.originalTitle == post.title && r.value.originalBody == post.selfTextPlain
    ensures r.NonNull? ==> r.value.translatedBody != NonNull("")
    ensures r.NonNull? ==>
              var o := ParseObject(c, jsonStr).value;
              && ("post_title" !in o ==> r.value.translatedTitle == "")
              && ("post_title" in o && o["post_title"].JStr? ==> r.value.translatedTitle == o["post_title"].s)
              && (r.value.translatedBody.Null? <==> "post_body" !in o || Coerce(c, o["post_body"]) == "")
              && ("post_body" in o && o["post_body"].JStr? && o["post_body"].s != "" ==>
                    r.value.translatedBody == NonNull(o["post_body"].s))
              && ("comments" !in o ==> r.value.translatedComments == map[])
              && ("comments" in o ==> r.value.translatedComments.Keys == o["comments"].fields.Keys)
              && ("comments" in o ==> r.value.translatedComments == CommentTexts(c, o["comments"].fields))
  {
    match ParseObject(c, jsonStr)
    case Thrown => Null
    case Ok(o) =>
      var title := OptString(c, o, "post_title", "");
      var body := OptString(c, o, "post_body", "");
      var translatedBody := if body == "" then Null else NonNull(body);
      if "comments" in o then
        match GetObject(o, "comments")
        case Thrown => Null
        case Ok(comments) =>
          NonNull(BatchResult(post.title, title, post.selfTextPlain, translatedBody, CommentTexts(c, comments)))
      else
        NonNull(BatchResult(post.title, title, post.selfTextPlain, translatedBody, map[]))
  }

  /**
   `parseResponse`: the envelope text, cut down to its JSON object and parsed.
   No text in either envelope, a response that is not an object, or a part of
   the wrong kind yields null.
   */
  function ParseResponse(c: Codec, responseBody: string, post: BatchInput.Post): (r: Nullable<BatchResult>)
    ensures r.NonNull? ==> ParseObject(c, responseBody).Ok?
    ensures r.NonNull? ==>
              var found := ResponseText(c, ParseObject(c, responseBody).value);
              found.Found? && r == ParseTranslationJson(c, ExtractJson(found.text), post)
  {
    match ParseObject(c, responseBody)
    case Thrown => Null
    case Ok(response) =>
      match ResponseText(c, response)
      case Found(text) => ParseTranslationJson(c, ExtractJsonFromText(NonNull(text)), post)
      case _ => Null
  }

  /**
   Envelope priority for a batch response: text at `output[0].content[0].text`
   decides whatever `choices` holds; `choices[0].message.content` is read only
   when the first path is missing a part; a part of the wrong kind on the first
   path, or no text at either, gives null.
   */
  lemma ParseResponseByPaths(c: Codec, responseBody: string, post: BatchInput.Post)
    requires ParseObject(c, responseBody).Ok?
    ensures var j := JObj(ParseObject(c, responseBody).value);
            Walk(j, OutputPath).Reached? ==>
              ParseResponse(c, responseBody, post) ==
                ParseTranslationJson(c, ExtractJson(Coerce(c, Walk(j, OutputPath).value)), post)
    ensures var j := JObj(ParseObject(c, responseBody).value);
            Walk(j, OutputPath).Missing? && Walk(j, ChoicesPath).Reached? ==>
              ParseResponse(c, responseBody, post) ==
                ParseTranslationJson(c, ExtractJson(Coerce(c, Walk(j, ChoicesPath).value)), post)
    ensures var j := JObj(ParseObject(c, responseBody).value);
            Walk(j, OutputPath).Mismatch? ==> ParseResponse(c, responseBody, post).Null?
    ensures var j := JObj(ParseObject(c, responseBody).value);
            !Walk(j, OutputPath).Reached? && !Walk(j, ChoicesPath).Reached? ==>
              ParseResponse(c, responseBody, post).Null?
  {
    var found := ResponseText(c, ParseObject(c, responseBody).value);
    assert ParseResponse(c, responseBody, post) ==
             if found.Found? then ParseTranslationJson(c, ExtractJson(found.text), post) else Null;
  }

  /** The object written to the cache: title, body ("" for null) and the comment translations. */
  function CacheJson(r: BatchResult): (j: Json)
    ensures j.JObj? && j.fields.Keys == {"post_title", "post_body", "comments"}
  {
    JObj(map[
      "post_title" := JStr(r.translatedTitle),
      "post_body" := JStr(BatchInput.OrEmpty(r.translatedBody)),
      "comments" := JObj(map k | k in r.translatedComments :: JStr(r.translatedComments[k]))])
  }

  /** The cache value: the printed cache object, which a lawful codec reads back as that object. */
  function CacheValue(c: Codec, r: BatchResult): (v: string)
    ensures Lawful(c) ==> ParseObject(c, v) == Ok(CacheJson(r).fields) && |v| > 0
  {
    c.stringify(CacheJson(r))
  }

  /**
   Reading a cache value back with the same post gives the result it was written
   from: title, body (null written as "" and read back as null) and every comment.
   */
  lemma CacheValueRoundTrip(c: Codec, r: BatchResult, post: BatchInput.Post)
    requires Lawful(c)
    requires r.originalTitle == post.title && r.originalBody == post.selfTextPlain
    requires r.translatedBody != NonNull("")
    ensures ParseTranslationJson(c, CacheValue(c, r), post) == NonNull(r)
  {
    var j := CacheJson(r);
    assert c.parse(c.stringify(j)) == Ok(j);
    var comments := map k | k in r.translatedComments :: JStr(r.translatedComments[k]);
    assert CommentTexts(c, comments) == r.translatedComments;
  }

  /** Every result the parser produces can be written to the cache and read back unchanged. */
  lemma ParsedResultRoundTrips(c: Codec, jsonStr: string, post: BatchInput.Post)
    requires Lawful(c) && ParseTranslationJson(c, jsonStr, post).NonNull?
    ensures var r := ParseTranslationJson(c, jsonStr, post).value;
            ParseTranslationJson(c, CacheValue(c, r), post) == NonNull(r)
  {
    CacheValueRoundTrip(c, ParseTranslationJson(c, jsonStr, post).value, post);
  }
}

=== FILE: batch_translate.dfy ===
/**
 Translating a post with its comments in one request: the outcome `translateBatch`
 delivers for a reply, and the cache consulted before it and written after a
 success by `translateBatchWithCache`.
 */
module BatchTranslate {
  import opened JavaText
  import opened Json
  import opened Remote
  import opened BatchInput
  import opened BatchResponse
  import TranslationCache

  /**
   The outcome delivered to the listener. A success normally carries a result;
   a cache hit whose value cannot be read back carries null.
   */
  datatype BatchOutcome = Translated(result: Nullable<BatchResult>) | TranslateFailed(message: string)

  /**
   The outcome `translateBatch` posts for a reply: success when the status is 2xx,
   there is a body, and it yields a result; otherwise the failure text for the case.
   */
  function DecideBatch(c: Codec, post: Post, reply: HttpReply): (o: BatchOutcome)
    ensures o.Translated? <==> HasSuccessBody(reply) && ParseResponse(c, reply.body.value, post).NonNull?
    ensures o.Translated? ==> o.result == ParseResponse(c, reply.body.value, post) && o.result.NonNull?
    ensures reply.Failed? ==> o == TranslateFailed("错误: " + Show(reply.message))
    ensures reply.Response? && !HasSuccessBody(reply) ==>
              o == TranslateFailed(StatusFailure("翻译失败: ", reply.code, reply.errorBody))
    ensures HasSuccessBody(reply) && o.TranslateFailed? ==> o.message == "无法解析翻译响应"
  {
    match reply
    case Failed(message) => TranslateFailed("错误: " + Show(message))
    case Response(code, body, errorBody) =>
      if IsSuccessful(code) && body.NonNull? then
        var result := ParseResponse(c, body.value, post);
        if result.NonNull? then Translated(result) else TranslateFailed("无法解析翻译响应")
      else TranslateFailed(StatusFailure("翻译失败: ", code, errorBody))
  }

  /** The request for a batch: the prompt followed by the payload text. */
  function BatchRequest(env: Env, post: Post, comments: seq<Comment>): (r: ApiRequest)
    ensures r.text == env.batchPrompt + BuildInputJson(env.codec, post, comments) && !r.stream && r.role == "user"
  {
    BuildRequest(env, env.batchPrompt + BuildInputJson(env.codec, post, comments))
  }

  /** What one call of `translateBatchWithCache` comes to: the outcome, the request sent if any, and the cache after it. */
  datatype BatchRun = BatchRun(outcome: BatchOutcome, request: Nullable<ApiRequest>, cache: TranslationCache.Cache)

  /**
   `translateBatchWithCache`. On a hit the cached value is parsed and delivered as a
   success, with no request, even when it does not parse (the result is then null).
   On a miss the request is sent; a success is stored as its cache value before it
   is delivered, and a failure leaves the cache as it was.
   */
  function TranslateBatchWithCache(env: Env, cache: TranslationCache.Cache, post: Post, comments: seq<Comment>, reply: HttpReply): (r: BatchRun)
    ensures var hit := TranslationCache.Stored(env.md5, cache, BatchCacheKey(env.md5, post, comments));
            && (hit.NonNull? ==>
                  && r.request.Null?
                  && r.outcome == Translated(ParseTranslationJson(env.codec, hit.value, post))
                  && r.cache == TranslationCache.Get(env.md5, cache, NonNull(BatchCacheKey(env.md5, post, comments))).1)
            && (hit.Null? ==>
                  && r.request == NonNull(BatchRequest(env, post, comments))
                  && r.outcome == DecideBatch(env.codec, post, reply))
            && (hit.Null? && r.outcome.TranslateFailed? ==> r.cache == cache)
            && (hit.Null? && r.outcome.Translated? ==>
                  r.cache == TranslationCache.Put(env.md5, cache, NonNull(BatchCacheKey(env.md5, post, comments)),
                                                  NonNull(CacheValue(env.codec, r.outcome.result.value))))
    ensures TranslationCache.Valid(cache) ==> TranslationCache.Valid(r.cache)
    ensures r.outcome.Translated? && r.outcome.result.Null? <==>
              && TranslationCache.Stored(env.md5, cache, BatchCacheKey(env.md5, post, comments)).NonNull?
              && ParseTranslationJson(env.codec,
                   TranslationCache.Stored(env.md5, cache, BatchCacheKey(env.md5, post, comments)).value, post).Null?
  {
    var key := BatchCacheKey(env.md5, post, comments);
    var (cached, afterGet) := TranslationCache.Get(env.md5, cache, NonNull(key));
    if cached.NonNull? then
      BatchRun(Translated(ParseTranslationJson(env.codec, cached.value, post)), Null, afterGet)
    else
      var outcome := DecideBatch(env.codec, post, reply);
      var request := NonNull(BatchRequest(env, post, comments));
      match outcome
      case Translated(result) =>
        BatchRun(outcome, request, TranslationCache.Put(env.md5, afterGet, NonNull(key), NonNull(CacheValue(env.codec, result.value))))
      case TranslateFailed(_) => BatchRun(outcome, request, afterGet)
  }

  /**
   After a successful batch, asking again for the same post is answered from the
   cache with the same result and no request. The comments may differ in their
   texts: only their ids and placeholder flags make up the key.
   */
  lemma RepeatedBatchIsServedFromCache(
    env: Env, cache: TranslationCache.Cache, post: Post, comments: seq<Comment>, again: seq<Comment>,
    reply: HttpReply, nextReply: HttpReply)
    requires Lawful(env.codec) && TranslationCache.Valid(cache)
    requires |again| == |comments|
    requires forall i :: 0 <= i < |comments| ==>
               again[i].id == comments[i].id && again[i].isPlaceholder == comments[i].isPlaceholder
    requires TranslateBatchWithCache(env, cache, post, comments, reply).outcome.Translated?
    ensures var first := TranslateBatchWithCache(env, cache, post, comments, reply);
            var second := TranslateBatchWithCache(env, first.cache, post, again, nextReply);
            second.request.Null? && second.outcome == first.outcome
  {
    var key := BatchCacheKey(env.md5, post, comments);
    CacheKeyIgnoresText(env.md5, post, comments, again);
    var first := TranslateBatchWithCache(env, cache, post, comments, reply);
    if TranslationCache.Stored(env.md5, cache, key).NonNull? {
      TranslationCache.GetKeepsStored(env.md5, cache, key, key);
    } else {
      var result := first.outcome.result.value;
      var value := CacheValue(env.codec, result);
      assert env.codec.parse(env.codec.stringify(CacheJson(result))) == Ok(CacheJson(result));
      TranslationCache.GetAfterPut(env.md5, cache, key, value);
      CacheValueRoundTrip(env.codec, result, post);
    }
  }
}

=== FILE: envelope.dfy ===
/**
 Locating the model's generated text in a response object. Both translation
 classes try the same two envelopes, in the same order:
 `output[0].content[0].text`, then `choices[0].message.content`.

 Each step of a path either checks for presence (`has`, `length() > 0`) and
 falls through when the part is missing, or demands a type (`getJSONArray`,
 `getJSONObject`) and throws when the part has the wrong shape.
 */
module Envelope {
  import opened JavaText
  import opened Json

  /** What one envelope lookup came to: text, nothing there, or an exception. */
  datatype Lookup = Found(text: string) | Absent | Faulted

  /**
   `output[0].content[0].text`, written as the nested checks the code performs.
   They come to the same as walking the path: text at its end, absent when a part
   is missing, a fault when a part has the wrong kind.
   */
  function OutputText(c: Codec, response: map<string, Json>): (r: Lookup)
    ensures r == PathText(c, response, OutputPath)
  {
    assert OutputPath[1..] == [Index(0), Key("content"), Index(0), Key("text")];
    assert OutputPath[1..][1..] == [Key("content"), Index(0), Key("text")];
    assert OutputPath[1..][1..][1..] == [Index(0), Key("text")];
    assert OutputPath[1..][1..][1..][1..] == [Key("text")];
    assert OutputPath[1..][1..][1..][1..][1..] == [];
    if "output" !in response then Absent
    else match GetArray(response, "output")
      case Thrown => Faulted
      case Ok(output) =>
        if |output| == 0 then Absent
        else match ElementObject(output, 0)
          case Thrown => Faulted
          case Ok(firstOutput) =>
            if "content" !in firstOutput then Absent
            else match GetArray(firstOutput, "content")
              case Thrown => Faulted
              case Ok(content) =>
                if |content| == 0 then Absent
                else match ElementObject(content, 0)
                  case Thrown => Faulted
                  case Ok(firstContent) =>
                    if "text" !in firstContent then Absent
                    else match GetString(c, firstContent, "text")
                      case Thrown => Faulted
                      case Ok(text) => Found(text)
  }

  /** `choices[0].message.content`, written as the nested checks the code performs; the same as walking that path. */
  function ChoicesText(c: Codec, response: map<string, Json>): (r: Lookup)
    ensures r == PathText(c, response, ChoicesPath)
  {
    assert ChoicesPath[1..] == [Index(0), Key("message"), Key("content")];
    assert ChoicesPath[1..][1..] == [Key("message"), Key("content")];
    assert ChoicesPath[1..][1..][1..] == [Key("content")];
    assert ChoicesPath[1..][1..][1..][1..] == [];
    if "choices" !in response then Absent
    else match GetArray(response, "choices")
      case Thrown => Faulted
      case Ok(choices) =>
        if |choices| == 0 then Absent
        else match ElementObject(choices, 0)
          case Thrown => Faulted
          case Ok(firstChoice) =>
            if "message" !in firstChoice then Absent
            else match GetObject(firstChoice, "message")
              case Thrown => Faulted
              case Ok(message) =>
                if "content" !in message then Absent
                else match GetString(c, message, "content")
                  case Thrown => Faulted
                  case Ok(text) => Found(text)
  }

  /**
   The envelope lookup. Stated through paths: text at `output[0].content[0].text`
   is taken whatever `choices` holds; `choices[0].message.content` is used only when
   some part of the first path is missing; a part of the wrong kind is a fault.
   */
  function ResponseText(c: Codec, response: map<string, Json>): (r: Lookup)
    ensures Walk(JObj(response), OutputPath).Reached? ==>
              r == Found(Coerce(c, Walk(JObj(response), OutputPath).value))
    ensures Walk(JObj(response), OutputPath).Mismatch? ==> r == Faulted
    ensures Walk(JObj(response), OutputPath).Missing? ==> r == PathText(c, response, ChoicesPath)
    ensures r.Found? ==> Walk(JObj(response), OutputPath).Reached? || Walk(JObj(response), ChoicesPath).Reached?
  {
    match OutputText(c, response)
    case Absent => ChoicesText(c, response)
    case other => other
  }

  // An independent account of the same lookups, as generic paths into a value.

  datatype Step = Key(name: string) | Index(index: nat)

  /** Following a path: a value, a part that is not there, or a part of the wrong kind. */
  datatype Walked = Reached(value: Json) | Missing | Mismatch

  function Walk(j: Json, path: seq<Step>): Walked
    decreases |path|
  {
    if |path| == 0 then Reached(j)
    else match path[0]
      case Key(k) =>
        if !j.JObj? then Mismatch
        else if k !in j.fields then Missing
        else Walk(j.fields[k], path[1..])
      case Index(i) =>
        if !j.JArr? then Mismatch
        else if i >= |j.items| then Missing
        else Walk(j.items[i], path[1..])
  }

  const OutputPath: seq<Step> := [Key("output"), Index(0), Key("content"), Index(0), Key("text")]
  const ChoicesPath: seq<Step> := [Key("choices"), Index(0), Key("message"), Key("content")]

  /** The lookup one path yields: the coerced text at its end, or why there is none. */
  function PathText(c: Codec, response: map<string, Json>, path: seq<Step>): Lookup {
    match Walk(JObj(response), path)
    case Reached(v) => Found(Coerce(c, v))
    case Missing => Absent
    case Mismatch => Faulted
  }
}

=== FILE: java_text.dfy ===
/**
 The few pieces of java.lang behaviour the translation code relies on: nullable
 references, exceptions, `String.trim`, `startsWith`/`endsWith`, `indexOf`/`lastIndexOf`
 and the decimal rendering of an `int` in string concatenation.

 A Dafny `char` is a Unicode scalar value, while a Java `String` is a sequence of
 UTF-16 code units in which a character outside the Basic Multilingual Plane takes
 two. Lengths that decide something are therefore counted with `JavaLength`. The
 index-based operations modelled here only look for characters of the Basic
 Multilingual Plane, so they cut a string at the same characters in either counting.
 */
module JavaText {

  /** A Java reference that may be `null`. */
  datatype Nullable<+T> = Null | NonNull(value: T)

  /** The outcome of a Java call that may throw: its value, or a thrown exception. */
  datatype Try<+T> = Ok(value: T) | Thrown

  /** `String.valueOf` of a possibly-null string, which is what `+` and `StringBuilder.append` use. */
  function Show(s: Nullable<string>): (r: string)
    ensures s.NonNull? ==> r == s.value
    ensures s.Null? ==> r == "null"
  {
    match s
    case Null => "null"
    case NonNull(v) => v
  }

  /** Java's `s == null || s.isEmpty()`. */
  predicate NullOrEmpty(s: Nullable<string>) {
    s.Null? || |s.value| == 0
  }

  /** The UTF-16 code units of one character: a surrogate pair above U+FFFF, one unit otherwise. */
  function Utf16Units(ch: char): nat {
    if ch as int > 0xFFFF then 2 else 1
  }

  /** `String.length()`: the number of UTF-16 code units, between one and two per character. */
  function JavaLength(s: string): (n: nat)
    ensures |s| <= n <= 2 * |s|
    ensures n == 0 <==> |s| == 0
  {
    if |s| == 0 then 0 else JavaLength(s[..|s| - 1]) + Utf16Units(s[|s| - 1])
  }

  /** Lengths add up over concatenation. */
  lemma {:induction false} JavaLengthAppend(a: string, b: string)
    ensures JavaLength(a + b) == JavaLength(a) + JavaLength(b)
    decreases |b|
  {
    if |b| > 0 {
      assert (a + b)[..|a + b| - 1] == a + b[..|b| - 1];
      assert (a + b)[|a + b| - 1] == b[|b| - 1];
      JavaLengthAppend(a, b[..|b| - 1]);
    } else {
      assert a + b == a;
    }
  }

  /** Text inside the Basic Multilingual Plane has one code unit per character. */
  lemma {:induction false} JavaLengthOfBmpText(s: string)
    requires forall i :: 0 <= i < |s| ==> s[i] as int <= 0xFFFF
    ensures JavaLength(s) == |s|
  {
    if |s| > 0 {
      JavaLengthOfBmpText(s[..|s| - 1]);
    }
  }

  /** Text made only of supplementary characters (emoji, say) has two code units per character. */
  lemma {:induction false} JavaLengthOfSupplementaryText(s: string)
    requires forall i :: 0 <= i < |s| ==> s[i] as int > 0xFFFF
    ensures JavaLength(s) == 2 * |s|
  {
    if |s| > 0 {
      JavaLengthOfSupplementaryText(s[..|s| - 1]);
    }
  }

  /** `String.length()` of a possibly-null string, counting null as zero code units. */
  function LengthOrZero(s: Nullable<string>): nat {
    match s
    case Null => 0
    case NonNull(v) => JavaLength(v)
  }

  /** The characters `String.trim` removes: every code unit up to and including the space. */
  predicate Blank(c: char) {
    c <= ' '
  }

  predicate AllBlank(s: string) {
    forall i :: 0 <= i < |s| ==> Blank(s[i])
  }

  function TrimStart(s: string): (r: string)
    ensures |r| <= |s| && r == s[|s| - |r|..]
    ensures AllBlank(s[..|s| - |r|])
    ensures |r| == 0 || !Blank(r[0])
  {
    if |s| > 0 && Blank(s[0]) then TrimStart(s[1..]) else s
  }

  function TrimEnd(s: string): (r: string)
    ensures |r| <= |s| && r == s[..|r|]
    ensures AllBlank(s[|r|..])
    ensures |r| == 0 || !Blank(r[|r| - 1])
  {
    if |s| > 0 && Blank(s[|s| - 1]) then TrimEnd(s[..|s| - 1]) else s
  }

  /** `String.trim`: the slice left after removing blank code units at both ends. */
  function Trim(s: string): (r: string)
    ensures |r| <= |s|
    ensures |r| == 0 || (!Blank(r[0]) && !Blank(r[|r| - 1]))
  {
    TrimEnd(TrimStart(s))
  }

  /** What `String.trim` removes is blank, from both ends only. */
  lemma TrimIsSlice(s: string)
    ensures exists i, j :: 0 <= i <= j <= |s| && Trim(s) == s[i..j] && AllBlank(s[..i]) && AllBlank(s[j..])
  {
    var t := TrimStart(s);
    var r := TrimEnd(t);
    assert r == s[|s| - |t|..|s| - |t| + |r|];
    assert s[|s| - |t| + |r|..] == t[|r|..];
  }

  predicate StartsWith(s: string, prefix: string) {
    |prefix| <= |s| && s[..|prefix|] == prefix
  }

  predicate EndsWith(s: string, suffix: string) {
    |suffix| <= |s| && s[|s| - |suffix|..] == suffix
  }

  /** `s.indexOf(c)`: the first position of `c`, or -1. */
  function IndexOf(s: string, c: char): (r: int)
    ensures -1 <= r < |s|
    ensures r >= 0 ==> s[r] == c
    ensures forall i :: 0 <= i < |s| && (r < 0 || i < r) ==> s[i] != c
  {
    if |s| == 0 then -1
    else if s[0] == c then 0
    else
      var k := IndexOf(s[1..], c);
      if k < 0 then -1 else k + 1
  }

  /** `s.lastIndexOf(c)`: the last position of `c`, or -1. */
  function LastIndexOf(s: string, c: char): (r: int)
    ensures -1 <= r < |s|
    ensures r >= 0 ==> s[r] == c
    ensures forall i :: 0 <= i < |s| && r < i ==> s[i] != c
  {
    if |s| == 0 then -1
    else if s[|s| - 1] == c then |s| - 1
    else LastIndexOf(s[..|s| - 1], c)
  }

  function Digit(d: nat): char
    requires d < 10
  {
    "0123456789"[d]
  }

  function NatDecimal(n: nat): (r: string)
    ensures |r| > 0
    ensures forall i :: 0 <= i < |r| ==> '0' <= r[i] <= '9'
  {
    if n < 10 then [Digit(n)] else NatDecimal(n / 10) + [Digit(n % 10)]
  }

  /** The decimal text Java produces for an `int` in string concatenation. */
  function Decimal(n: int): (r: string)
    ensures |r| > 0
    ensures n >= 0 <==> r[0] != '-'
  {
    if n < 0 then "-" + NatDecimal(-n) else NatDecimal(n)
  }

  /** Removing blank text from either side does not change what `trim` yields. */
  lemma {:induction false} TrimIgnoresBlankPadding(front: string, middle: string, back: string)
    requires AllBlank(front) && AllBlank(back)
    ensures Trim(front + middle + back) == Trim(middle)
  {
    assert front + middle + back == front + (middle + back);
    TrimStartIgnoresBlankFront(front, middle + back);
    TrimStartOfPaddedSuffix(middle, back);
    assert Trim(front + middle + back) == TrimEnd(TrimStart(front + (middle + back)));
  }

  lemma {:induction false} TrimStartIgnoresBlankFront(front: string, rest: string)
    requires AllBlank(front)
    ensures TrimStart(front + rest) == TrimStart(rest)
    decreases |front|
  {
    if |front| > 0 {
      assert (front + rest)[1..] == front[1..] + rest;
      TrimStartIgnoresBlankFront(front[1..], rest);
    } else {
      assert front + rest == rest;
    }
  }

  lemma {:induction false} TrimEndIgnoresBlankBack(rest: string, back: string)
    requires AllBlank(back)
    ensures TrimEnd(rest + back) == TrimEnd(rest)
    decreases |back|
  {
    if |back| > 0 {
      assert (rest + back)[..|rest + back| - 1] == rest + back[..|back| - 1];
      TrimEndIgnoresBlankBack(rest, back[..|back| - 1]);
    } else {
      assert rest + back == rest;
    }
  }

  /** Trimming the start first and the blank tail afterwards commutes with the padding. */
  lemma {:induction false} TrimStartOfPaddedSuffix(middle: string, back: string)
    requires AllBlank(back)
    ensures TrimEnd(TrimStart(middle + back)) == TrimEnd(TrimStart(middle))
    decreases |middle|
  {
    if |middle| > 0 && Blank(middle[0]) {
      assert (middle + back)[1..] == middle[1..] + back;
      TrimStartOfPaddedSuffix(middle[1..], back);
    } else if |middle| > 0 {
      TrimEndIgnoresBlankBack(middle, back);
    } else {
      assert middle + back == back;
      AllBlankTrimsAway(back);
    }
  }

  lemma {:induction false} AllBlankTrimsAway(s: string)
    requires AllBlank(s)
    ensures TrimStart(s) == []
    decreases |s|
  {
    if |s| > 0 {
      AllBlankTrimsAway(s[1..]);
    }
  }

  /** Text with non-blank ends is its own trim. */
  lemma TrimKeepsNonBlankEnds(s: string)
    requires |s| > 0 && !Blank(s[0]) && !Blank(s[|s| - 1])
    ensures Trim(s) == s
  {
  }
}

=== FILE: json.dfy ===
/**
 JSON values and the parts of Android's `org.json` the translation code calls.

 Text is turned into values and back by a `Codec`, whose two functions stand for
 the `JSONObject(String)` constructor and `toString()`; they are parameters
 because the tokenizer and printer are library code outside this model.
 */
module Json {
  import opened JavaText

  /** A JSON value. A number keeps the text Java prints for it. */
  datatype Json =
    | JNull
    | JBool(b: bool)
    | JNum(lexeme: string)
    | JStr(s: string)
    | JArr(items: seq<Json>)
    | JObj(fields: map<string, Json>)

  /** JSON text parsing (`Thrown` for malformed text) and compact printing. */
  datatype Codec = Codec(parse: string -> Try<Json>, stringify: Json -> string)

  /** A codec whose parser reads back exactly what its printer wrote; printed text is never empty. */
  ghost predicate Lawful(c: Codec) {
    forall j :: c.parse(c.stringify(j)) == Ok(j) && |c.stringify(j)| > 0
  }

  /**
   `new JSONObject(text)`: the parsed value when it is an object; any other value,
   or text that does not parse, throws.
   */
  function ParseObject(c: Codec, text: string): (r: Try<map<string, Json>>)
    ensures r.Ok? <==> c.parse(text).Ok? && c.parse(text).value.JObj?
    ensures r.Ok? ==> c.parse(text).value == JObj(r.value)
  {
    match c.parse(text)
    case Ok(JObj(m)) => Ok(m)
    case _ => Thrown
  }

  /**
   Android's conversion of a stored value to a string (`JSON.toString`): strings are
   returned as they are, and every other value (including `JSONObject.NULL`) is
   rendered as text.
   */
  function Coerce(c: Codec, v: Json): (r: string)
    ensures v.JStr? ==> r == v.s
    ensures v == JNull ==> r == "null"
  {
    match v
    case JStr(s) => s
    case JNull => "null"
    case JBool(b) => if b then "true" else "false"
    case JNum(lexeme) => lexeme
    case JArr(_) => c.stringify(v)
    case JObj(_) => c.stringify(v)
  }

  /** `getJSONArray(key)`: throws when the key is missing or not an array. */
  function GetArray(o: map<string, Json>, key: string): (r: Try<seq<Json>>)
    ensures r.Ok? <==> key in o && o[key].JArr?
    ensures r.Ok? ==> o[key] == JArr(r.value)
  {
    if key in o && o[key].JArr? then Ok(o[key].items) else Thrown
  }

  /** `getJSONObject(key)`: throws when the key is missing or not an object. */
  function GetObject(o: map<string, Json>, key: string): (r: Try<map<string, Json>>)
    ensures r.Ok? <==> key in o && o[key].JObj?
    ensures r.Ok? ==> o[key] == JObj(r.value)
  {
    if key in o && o[key].JObj? then Ok(o[key].fields) else Thrown
  }

  /** `JSONArray.getJSONObject(index)`: throws when out of range or not an object. */
  function ElementObject(a: seq<Json>, index: nat): (r: Try<map<string, Json>>)
    ensures r.Ok? <==> index < |a| && a[index].JObj?
    ensures r.Ok? ==> a[index] == JObj(r.value)
  {
    if index < |a| && a[index].JObj? then Ok(a[index].fields) else Thrown
  }

  /** `getString(key)`: throws only when the key is missing; other values are coerced. */
  function GetString(c: Codec, o: map<string, Json>, key: string): (r: Try<string>)
    ensures r.Ok? <==> key in o
    ensures r.Ok? ==> r.value == Coerce(c, o[key])
  {
    if key in o then Ok(Coerce(c, o[key])) else Thrown
  }

  /** `optString(key, fallback)`: the coerced value, or the fallback when the key is missing. */
  function OptString(c: Codec, o: map<string, Json>, key: string, fallback: string): (r: string)
    ensures key !in o ==> r == fallback
    ensures key in o ==> r == Coerce(c, o[key])
  {
    if key in o then Coerce(c, o[key]) else fallback
  }
}

=== FILE: lru_store.dfy ===
/**
 A bounded least-recently-used map from strings to strings, with the behaviour of
 `android.util.LruCache` when every entry has size one: a hit moves the entry to
 the most-recent end, a put replaces any entry for its key and becomes the most
 recent, and the store then drops least-recent entries until it is within bounds.
 */
module LruStore {
  import opened JavaText

  datatype Entry = Entry(key: string, value: string)

  /** `entries` runs from the least recently used to the most recently used. */
  datatype Lru = Lru(maxSize: nat, entries: seq<Entry>)

  ghost predicate KeyAbsent(es: seq<Entry>, k: string) {
    forall e :: e in es ==> e.key != k
  }

  /** No key occurs twice. */
  ghost predicate DistinctKeys(es: seq<Entry>) {
    |es| == 0 || (KeyAbsent(es[1..], es[0].key) && DistinctKeys(es[1..]))
  }

  /** The shape every reachable store has: a positive bound that holds, and one entry per key. */
  ghost predicate Valid(c: Lru) {
    && c.maxSize > 0
    && |c.entries| <= c.maxSize
    && DistinctKeys(c.entries)
  }

  /** The value stored for `k`, without any change of recency. */
  function Lookup(es: seq<Entry>, k: string): (r: Nullable<string>)
    ensures r.NonNull? ==> Entry(k, r.value) in es
    ensures r.Null? <==> KeyAbsent(es, k)
  {
    if |es| == 0 then Null
    else if es[0].key == k then NonNull(es[0].value)
    else
      var r := Lookup(es[1..], k);
      assert forall e :: e in es ==> e == es[0] || e in es[1..];
      r
  }

  /** The entries without the one for `k`, in their old order. */
  function Remove(es: seq<Entry>, k: string): (r: seq<Entry>)
    ensures forall e :: e in r <==> e in es && e.key != k
    ensures KeyAbsent(es, k) ==> r == es
    ensures DistinctKeys(es) ==> DistinctKeys(r)
    ensures DistinctKeys(es) && !KeyAbsent(es, k) ==> |r| == |es| - 1
    ensures |r| <= |es|
  {
    if |es| == 0 then []
    else
      assert forall e :: e in es <==> e == es[0] || e in es[1..];
      var rest := Remove(es[1..], k);
      if es[0].key == k then rest
      else
        assert ([es[0]] + rest)[1..] == rest;
        [es[0]] + rest
  }

  /**
   With one entry per key, removing `k` takes out exactly the entry that holds it and
   leaves the entries before and after it in their old order.
   */
  lemma {:induction false} RemoveKeepsOrder(es: seq<Entry>, k: string, i: nat)
    requires DistinctKeys(es) && i < |es| && es[i].key == k
    ensures Remove(es, k) == es[..i] + es[i + 1..]
    decreases |es|
  {
    if i == 0 {
      RemoveAtHead(es, k);
    } else {
      HeadKeyDiffers(es, i);
      RemovePastHead(es, k);
      RemoveKeepsOrder(es[1..], k, i - 1);
      SplitAfterHead(es, i);
    }
  }

  lemma HeadKeyDiffers(es: seq<Entry>, i: nat)
    requires DistinctKeys(es) && 0 < i < |es|
    ensures es[0].key != es[i].key
  {
    assert es[1..][i - 1] == es[i];
  }

  lemma SplitAfterHead(es: seq<Entry>, i: nat)
    requires 0 < i < |es|
    ensures [es[0]] + (es[1..][..i - 1] + es[1..][i..]) == es[..i] + es[i + 1..]
  {
    assert es[1..][..i - 1] == es[1..i];
    assert es[1..][i..] == es[i + 1..];
    assert [es[0]] + es[1..i] == es[..i];
  }

  lemma RemoveAtHead(es: seq<Entry>, k: string)
    requires DistinctKeys(es) && |es| > 0 && es[0].key == k
    ensures Remove(es, k) == es[1..]
  {
    assert KeyAbsent(es[1..], k);
  }

  lemma RemovePastHead(es: seq<Entry>, k: string)
    requires |es| > 0 && es[0].key != k
    ensures Remove(es, k) == [es[0]] + Remove(es[1..], k)
  {
  }

  /** `trimToSize`: drop least-recent entries while the store is over its bound. */
  function TrimToSize(es: seq<Entry>, maxSize: nat): (r: seq<Entry>)
    ensures |r| == if |es| <= maxSize then |es| else maxSize
    ensures r == es[|es| - |r|..]
    ensures DistinctKeys(es) ==> DistinctKeys(r)
    decreases |es|
  {
    if |es| <= maxSize then es else TrimToSize(es[1..], maxSize)
  }

  lemma {:induction false} AppendFreshKey(es: seq<Entry>, e: Entry)
    requires DistinctKeys(es) && KeyAbsent(es, e.key)
    ensures DistinctKeys(es + [e])
    decreases |es|
  {
    if |es| > 0 {
      assert (es + [e])[1..] == es[1..] + [e];
      AppendFreshKey(es[1..], e);
    } else {
      assert es + [e] == [e];
    }
  }

  lemma RemoveThenAppend(es: seq<Entry>, e: Entry)
    ensures DistinctKeys(es) ==> DistinctKeys(Remove(es, e.key) + [e])
  {
    if DistinctKeys(es) {
      AppendFreshKey(Remove(es, e.key), e);
    }
  }

  /** With one entry per key, membership decides the lookup. */
  lemma {:induction false} LookupOfMember(es: seq<Entry>, k: string, v: string)
    requires DistinctKeys(es) && Entry(k, v) in es
    ensures Lookup(es, k) == NonNull(v)
    decreases |es|
  {
    if es[0] != Entry(k, v) {
      assert Entry(k, v) in es[1..];
      LookupOfMember(es[1..], k, v);
    }
  }

  /** Two stores with one entry per key and the same members answer every lookup alike. */
  lemma SameMembersSameLookups(a: seq<Entry>, b: seq<Entry>, k: string)
    requires DistinctKeys(a) && DistinctKeys(b)
    requires forall e: Entry :: e.key == k ==> (e in a <==> e in b)
    ensures Lookup(a, k) == Lookup(b, k)
  {
    var ra := Lookup(a, k);
    if ra.NonNull? {
      LookupOfMember(b, k, ra.value);
    }
  }

  /** `LruCache.get`: the stored value, and on a hit the entry becomes the most recent. */
  function Get(c: Lru, k: string): (r: (Nullable<string>, Lru))
    ensures r.0 == Lookup(c.entries, k)
    ensures r.0.Null? ==> r.1 == c
    ensures r.1.maxSize == c.maxSize
    ensures forall e :: e in r.1.entries ==> e in c.entries
    ensures Valid(c) && r.0.NonNull? ==>
              && Valid(r.1)
              && |r.1.entries| == |c.entries|
              && r.1.entries[|r.1.entries| - 1] == Entry(k, r.0.value)
              && r.1.entries[..|r.1.entries| - 1] == Remove(c.entries, k)
  {
    match Lookup(c.entries, k)
    case Null => (Null, c)
    case NonNull(v) =>
      var kept := Remove(c.entries, k);
      RemoveThenAppend(c.entries, Entry(k, v));
      assert (kept + [Entry(k, v)])[..|kept|] == kept;
      (NonNull(v), Lru(c.maxSize, kept + [Entry(k, v)]))
  }

  /** A hit changes the order of the entries, never what they map keys to. */
  lemma GetKeepsContents(c: Lru, k: string, k': string)
    requires Valid(c)
    ensures Valid(Get(c, k).1)
    ensures Lookup(Get(c, k).1.entries, k') == Lookup(c.entries, k')
  {
    var r := Get(c, k);
    if r.0.NonNull? {
      var v := r.0.value;
      assert r.1.entries == Remove(c.entries, k) + [Entry(k, v)];
      forall e: Entry | e.key == k'
        ensures e in c.entries <==> e in r.1.entries
      {
        if e.key == k {
          LookupOfMember(c.entries, k, v);
          if e in c.entries {
            LookupOfMember(c.entries, k, e.value);
          }
        }
      }
      SameMembersSameLookups(c.entries, r.1.entries, k');
    }
  }

  /**
   What a put of `k` to `v` on `c` leaves: nothing but old entries and the new one,
   the new one most recent, the bound and one entry per key kept, the size kept on
   a replacement, and, for a new key, either an append or, at the bound, the
   eviction of exactly the least recent entry.
   */
  ghost predicate PutOutcome(c: Lru, k: string, v: string, r: Lru) {
    && r.maxSize == c.maxSize
    && (forall e :: e in r.entries ==> e in c.entries || e == Entry(k, v))
    && (Valid(c) ==>
          && Valid(r)
          && |r.entries| > 0
          && r.entries[|r.entries| - 1] == Entry(k, v)
          && (!KeyAbsent(c.entries, k) ==> |r.entries| == |c.entries|)
          && (!KeyAbsent(c.entries, k) ==> r.entries == Remove(c.entries, k) + [Entry(k, v)])
          && (KeyAbsent(c.entries, k) && |c.entries| < c.maxSize ==> r.entries == c.entries + [Entry(k, v)])
          && (KeyAbsent(c.entries, k) && |c.entries| == c.maxSize ==> r.entries == c.entries[1..] + [Entry(k, v)]))
  }

  /** `LruCache.put`: replace or add the entry as the most recent, then trim to the bound. */
  function Put(c: Lru, k: string, v: string): (r: Lru)
    ensures PutOutcome(c, k, v, r)
  {
    PutShape(c, k, v);
    Lru(c.maxSize, TrimToSize(Remove(c.entries, k) + [Entry(k, v)], c.maxSize))
  }

  lemma PutShape(c: Lru, k: string, v: string)
    ensures PutOutcome(c, k, v, Lru(c.maxSize, TrimToSize(Remove(c.entries, k) + [Entry(k, v)], c.maxSize)))
  {
    PutKeepsOnlyOldAndNew(c, k, v);
    if Valid(c) {
      PutKeepsValid(c, k, v);
      PutSizes(c, k, v);
    }
  }

  lemma PutKeepsOnlyOldAndNew(c: Lru, k: string, v: string)
    ensures forall e :: e in TrimToSize(Remove(c.entries, k) + [Entry(k, v)], c.maxSize) ==>
              e in c.entries || e == Entry(k, v)
  {
    var appended := Remove(c.entries, k) + [Entry(k, v)];
    var r := TrimToSize(appended, c.maxSize);
    assert forall e :: e in r ==> e in appended;
  }

  lemma PutKeepsValid(c: Lru, k: string, v: string)
    requires Valid(c)
    ensures var r := TrimToSize(Remove(c.entries, k) + [Entry(k, v)], c.maxSize);
            Valid(Lru(c.maxSize, r)) && |r| > 0 && r[|r| - 1] == Entry(k, v)
  {
    var appended := Remove(c.entries, k) + [Entry(k, v)];
    RemoveThenAppend(c.entries, Entry(k, v));
    var r := TrimToSize(appended, c.maxSize);
    assert r[|r| - 1] == appended[|appended| - 1];
  }

  lemma PutSizes(c: Lru, k: string, v: string)
    requires Valid(c)
    ensures var r := TrimToSize(Remove(c.entries, k) + [Entry(k, v)], c.maxSize);
            && (!KeyAbsent(c.entries, k) ==> |r| == |c.entries|)
            && (!KeyAbsent(c.entries, k) ==> r == Remove(c.entries, k) + [Entry(k, v)])
            && (KeyAbsent(c.entries, k) && |c.entries| < c.maxSize ==> r == c.entries + [Entry(k, v)])
            && (KeyAbsent(c.entries, k) && |c.entries| == c.maxSize ==> r == c.entries[1..] + [Entry(k, v)])
  {
    var appended := Remove(c.entries, k) + [Entry(k, v)];
    var r := TrimToSize(appended, c.maxSize);
    if KeyAbsent(c.entries, k) && |c.entries| == c.maxSize {
      assert r == appended[1..];
      assert appended[1..] == c.entries[1..] + [Entry(k, v)];
    }
  }

  /**
   After a put the key maps to the new value; every other key keeps its value,
   except the least-recent key when a new key arrives at a full store.
   */
  lemma PutContents(c: Lru, k: string, v: string, k': string)
    requires Valid(c)
    ensures Lookup(Put(c, k, v).entries, k) == NonNull(v)
    ensures k' != k && (!KeyAbsent(c.entries, k) || |c.entries| < c.maxSize) ==>
              Lookup(Put(c, k, v).entries, k') == Lookup(c.entries, k')
    ensures k' != k && KeyAbsent(c.entries, k) && |c.entries| == c.maxSize ==>
              Lookup(Put(c, k, v).entries, k') ==
                (if k' == c.entries[0].key then Null else Lookup(c.entries, k'))
  {
    var r := Put(c, k, v);
    assert Entry(k, v) in r.entries;
    LookupOfMember(r.entries, k, v);
    if k' != k {
      if !KeyAbsent(c.entries, k) || |c.entries| < c.maxSize {
        if !KeyAbsent(c.entries, k) {
          assert |Remove(c.entries, k) + [Entry(k, v)]| <= c.maxSize;
        }
        assert r.entries == Remove(c.entries, k) + [Entry(k, v)];
        SameMembersSameLookups(c.entries, r.entries, k');
      } else if k' == c.entries[0].key {
        assert KeyAbsent(c.entries[1..], k');
      } else {
        assert forall e :: e in c.entries <==> e == c.entries[0] || e in c.entries[1..];
        SameMembersSameLookups(c.entries, r.entries, k');
      }
    }
  }

  /** At the bound, a new key evicts the least recent entry, never the most recent one. */
  lemma RecentSurvivesEviction(c: Lru, k: string, v: string)
    requires Valid(c) && |c.entries| == c.maxSize > 1 && KeyAbsent(c.entries, k)
    ensures var last := c.entries[|c.entries| - 1];
            Lookup(Put(c, k, v).entries, last.key) == NonNull(last.value)
  {
    var last := c.entries[|c.entries| - 1];
    var r := Put(c, k, v);
    assert r.entries == c.entries[1..] + [Entry(k, v)];
    assert last == r.entries[|c.entries| - 2];
    LookupOfMember(r.entries, last.key, last.value);
  }

  /** `LruCache.evictAll`. */
  function EvictAll(c: Lru): (r: Lru)
    ensures Valid(c) ==> Valid(r)
    ensures forall k :: Lookup(r.entries, k).Null?
    ensures |r.entries| == 0
  {
    Lru(c.maxSize, [])
  }
}

=== FILE: refined_tag.dfy ===
/**
 The search for the refined translation in a single-text reply: Java's
 `Matcher.find` with the pattern
 `<step3_refined_translation>\s*(.+?)\s*</step3_refined_translation>` compiled
 with DOTALL, followed by `trim` of the captured group.

 The matcher is written out in the order a backtracking engine tries the
 alternatives: start positions from the left; after the opening tag, the greedy
 `\s*` from its longest run down to nothing; for each, the lazy group from one
 character upwards; after the group, the greedy `\s*` and then the closing tag.
 */
module RefinedTag {
  import opened JavaText

  const OpenTag: string := "<step3_refined_translation>"
  const CloseTag: string := "</step3_refined_translation>"

  /** Regex `\s`: space, tab, newline, vertical tab, form feed, carriage return. */
  predicate RegexSpace(ch: char) {
    ch == ' ' || '\t' <= ch <= '\r'
  }

  /** The length of the run of `\s` characters starting at `i`. */
  function SpaceRun(s: string, i: nat): (n: nat)
    requires i <= |s|
    ensures i + n <= |s|
    decreases |s| - i
  {
    if i < |s| && RegexSpace(s[i]) then 1 + SpaceRun(s, i + 1) else 0
  }

  /** The run is all `\s`, and the character after it, if any, is not. */
  lemma {:induction false} SpaceRunIsMaximal(s: string, i: nat)
    requires i <= |s|
    ensures forall k :: i <= k < i + SpaceRun(s, i) ==> RegexSpace(s[k])
    ensures i + SpaceRun(s, i) == |s| || !RegexSpace(s[i + SpaceRun(s, i)])
    decreases |s| - i
  {
    if i < |s| && RegexSpace(s[i]) {
      SpaceRunIsMaximal(s, i + 1);
    }
  }

  predicate TagAt(s: string, i: int, tag: string) {
    0 <= i && i + |tag| <= |s| && s[i..i + |tag|] == tag
  }

  /** After a group ending at `e`, `\s*` then the closing tag match. */
  predicate ClosesAt(s: string, e: nat)
    requires e <= |s|
  {
    TagAt(s, e + SpaceRun(s, e), CloseTag)
  }

  /** No closing tag starts anywhere in `[from, q)`. */
  predicate NoCloseBetween(s: string, from: nat, q: nat)
    decreases q - from
  {
    from >= q || (!TagAt(s, from, CloseTag) && NoCloseBetween(s, from + 1, q))
  }

  lemma {:induction false} NoCloseBetweenMeans(s: string, from: nat, q: nat)
    ensures NoCloseBetween(s, from, q) <==> forall k :: from <= k < q ==> !TagAt(s, k, CloseTag)
    decreases q - from
  {
    if from < q {
      NoCloseBetweenMeans(s, from + 1, q);
    }
  }

  /** The lazy `(.+?)`: the first group end from `e` on after which the closing part matches. */
  function LazyEnd(s: string, e: nat): (r: Nullable<nat>)
    requires e <= |s|
    ensures r.NonNull? ==> e <= r.value <= |s| && ClosesAt(s, r.value)
    decreases |s| - e
  {
    if ClosesAt(s, e) then NonNull(e)
    else if e < |s| then LazyEnd(s, e + 1)
    else Null
  }

  /** No earlier group end closes: the lazy group is the shortest one. */
  lemma {:induction false} LazyEndIsFirst(s: string, e: nat)
    requires e <= |s|
    ensures forall k :: e <= k <= |s| && (LazyEnd(s, e).Null? || k < LazyEnd(s, e).value) ==> !ClosesAt(s, k)
    decreases |s| - e
  {
    if !ClosesAt(s, e) && e < |s| {
      LazyEndIsFirst(s, e + 1);
    }
  }

  /**
   The greedy `\s*` after the opening tag ends at `a`: it first takes `k` spaces,
   then gives them back one at a time. The group spans `[a + k, end)`.
   */
  function GreedyThenLazy(s: string, a: nat, k: nat): (r: Nullable<(nat, nat)>)
    requires a + k <= |s| && k <= SpaceRun(s, a)
    ensures r.NonNull? ==>
              && a <= r.value.0 <= a + k
              && r.value.0 < r.value.1 <= |s|
              && ClosesAt(s, r.value.1)
    decreases k
  {
    var g := a + k;
    var m := if g < |s| then LazyEnd(s, g + 1) else Null;
    if m.NonNull? then NonNull((g, m.value))
    else if k == 0 then Null
    else GreedyThenLazy(s, a, k - 1)
  }

  /** An attempt to match at position `p`: the span of the captured group, if any. */
  function MatchAt(s: string, p: nat): (r: Nullable<(nat, nat)>)
    ensures r.NonNull? ==>
              && TagAt(s, p, OpenTag)
              && p + |OpenTag| <= r.value.0 < r.value.1 <= |s|
              && ClosesAt(s, r.value.1)
  {
    if TagAt(s, p, OpenTag) then
      var a := p + |OpenTag|;
      GreedyThenLazy(s, a, SpaceRun(s, a))
    else Null
  }

  /** `find` from position `p`: the first start position where a match exists. */
  function FindFrom(s: string, p: nat): (r: Nullable<(nat, nat)>)
    ensures r.NonNull? ==> p + |OpenTag| <= r.value.0 < r.value.1 <= |s| && ClosesAt(s, r.value.1)
    decreases |s| + 1 - p
  {
    if p > |s| then Null
    else
      var m := MatchAt(s, p);
      if m.NonNull? then m else FindFrom(s, p + 1)
  }

  /**
   The refined translation when the tag pair is there, else the text itself. A
   refined translation has lost at least both tags.
   */
  function Refine(text: string): (r: string)
    ensures FindFrom(text, 0).Null? ==> r == text
    ensures FindFrom(text, 0).NonNull? ==> |r| + |OpenTag| + |CloseTag| <= |text|
  {
    match FindFrom(text, 0)
    case NonNull(span) => Trim(text[span.0..span.1])
    case Null => text
  }

  // Properties.

  lemma RegexSpaceIsBlank(s: string)
    requires forall k :: 0 <= k < |s| ==> RegexSpace(s[k])
    ensures AllBlank(s)
  {
  }

  /** Positions without an opening tag are passed over. */
  lemma {:induction false} FindSkips(s: string, i: nat, p: nat)
    requires i <= p
    requires forall k :: i <= k < p ==> !TagAt(s, k, OpenTag)
    ensures FindFrom(s, i) == FindFrom(s, p)
    decreases p - i
  {
    if i < p {
      assert !TagAt(s, i, OpenTag);
      FindSkips(s, i + 1, p);
    }
  }

  lemma CloseTagStartsWithBracket(s: string, q: int)
    requires TagAt(s, q, CloseTag)
    ensures s[q] == '<' && !RegexSpace(s[q])
  {
    assert s[q] == s[q..q + |CloseTag|][0];
  }

  /** A closing tag at `q` with only `\s` between `e` and `q` closes a group ending at `e`. */
  lemma SpacesThenClose(s: string, e: nat, q: nat)
    requires e <= q && TagAt(s, q, CloseTag)
    requires forall k :: e <= k < q ==> RegexSpace(s[k])
    ensures ClosesAt(s, e) && e + SpaceRun(s, e) == q
  {
    CloseTagStartsWithBracket(s, q);
    SpaceRunIsMaximal(s, e);
  }

  /**
   The refined span: take the first opening tag, and the first closing tag after it.
   When something other than `\s` lies between them, the result is that content,
   trimmed.
   */
  lemma RefineFindsFirstTaggedSpan(s: string, p: nat, q: nat)
    requires TagAt(s, p, OpenTag) && forall k :: 0 <= k < p ==> !TagAt(s, k, OpenTag)
    requires p + |OpenTag| <= q && TagAt(s, q, CloseTag)
    requires forall k :: p + |OpenTag| <= k < q ==> !TagAt(s, k, CloseTag)
    requires exists k :: p + |OpenTag| <= k < q && !RegexSpace(s[k])
    ensures Refine(s) == Trim(s[p + |OpenTag|..q])
  {
    FindSkips(s, 0, p);
    var g, e := MatchAtFirstClose(s, p, q);
    TrimDropsSpacePadding(s, p + |OpenTag|, g, e, q);
  }

  /** Trimming a span gives the same as trimming it without `\s` padding at either end. */
  lemma TrimDropsSpacePadding(s: string, a: nat, g: nat, e: nat, q: nat)
    requires a <= g <= e <= q <= |s|
    requires forall k :: a <= k < g ==> RegexSpace(s[k])
    requires forall k :: e <= k < q ==> RegexSpace(s[k])
    ensures Trim(s[a..q]) == Trim(s[g..e])
  {
    var front := s[a..g];
    var middle := s[g..e];
    var back := s[e..q];
    assert s[a..q] == front + middle + back;
    RegexSpaceIsBlank(front);
    RegexSpaceIsBlank(back);
    TrimIgnoresBlankPadding(front, middle, back);
  }

  /**
   At the first opening tag, the group starts after the whole run of spaces and
   ends where the spaces before the first closing tag begin.
   */
  lemma MatchAtFirstClose(s: string, p: nat, q: nat) returns (g: nat, e: nat)
    requires TagAt(s, p, OpenTag)
    requires p + |OpenTag| <= q && TagAt(s, q, CloseTag)
    requires forall k :: p + |OpenTag| <= k < q ==> !TagAt(s, k, CloseTag)
    requires exists k :: p + |OpenTag| <= k < q && !RegexSpace(s[k])
    ensures p + |OpenTag| <= g < e <= q
    ensures MatchAt(s, p) == NonNull((g, e))
    ensures forall k :: p + |OpenTag| <= k < g ==> RegexSpace(s[k])
    ensures forall k :: e <= k < q ==> RegexSpace(s[k])
  {
    CloseTagStartsWithBracket(s, q);
    g := ContentStart(s, p + |OpenTag|, q);
    NoCloseBetweenMeans(s, g + 1, q);
    e := GroupEnd(s, p, g, q);
  }

  /** Some non-space before `q` stops the run of spaces before `q`. */
  lemma ContentStart(s: string, a: nat, q: nat) returns (g: nat)
    requires a <= q <= |s|
    requires exists k :: a <= k < q && !RegexSpace(s[k])
    ensures g == a + SpaceRun(s, a) && g < q
    ensures forall k :: a <= k < g ==> RegexSpace(s[k])
  {
    SpaceRunIsMaximal(s, a);
    g := a + SpaceRun(s, a);
    var k :| a <= k < q && !RegexSpace(s[k]);
    SpaceRunStopsAt(s, a, k);
  }

  /** With the group starting after all the spaces, it ends where the spaces before the first closing tag begin. */
  lemma GroupEnd(s: string, p: nat, g: nat, q: nat) returns (e: nat)
    requires TagAt(s, p, OpenTag) && g == p + |OpenTag| + SpaceRun(s, p + |OpenTag|)
    requires g < q < |s| && TagAt(s, q, CloseTag)
    requires NoCloseBetween(s, g + 1, q)
    ensures g < e <= q && MatchAt(s, p) == NonNull((g, e))
    ensures forall k :: e <= k < q ==> RegexSpace(s[k])
  {
    e := LazyEndBefore(s, g + 1, q);
    GreedyKeepsAllSpaces(s, p + |OpenTag|, e);
    MatchAtIsGreedy(s, p);
  }

  lemma SpaceRunStopsAt(s: string, a: nat, k: nat)
    requires a <= k < |s| && !RegexSpace(s[k])
    ensures a + SpaceRun(s, a) <= k
  {
    SpaceRunIsMaximal(s, a);
  }

  /** When the lazy group can follow the full run of spaces, the greedy `\s*` keeps all of them. */
  lemma GreedyKeepsAllSpaces(s: string, a: nat, e: nat)
    requires a <= |s| && a + SpaceRun(s, a) < |s|
    requires LazyEnd(s, a + SpaceRun(s, a) + 1) == NonNull(e)
    ensures GreedyThenLazy(s, a, SpaceRun(s, a)) == NonNull((a + SpaceRun(s, a), e))
  {
  }

  /** At an opening tag, the attempt is the greedy `\s*` followed by the lazy group. */
  lemma MatchAtIsGreedy(s: string, p: nat)
    requires TagAt(s, p, OpenTag)
    ensures MatchAt(s, p) == GreedyThenLazy(s, p + |OpenTag|, SpaceRun(s, p + |OpenTag|))
  {
  }

  /**
   From a position after which the first closing tag is at `q`, the lazy group
   ends where the spaces before `q` begin.
   */
  lemma LazyEndBefore(s: string, from: nat, q: nat) returns (e: nat)
    requires from <= q && TagAt(s, q, CloseTag)
    requires NoCloseBetween(s, from, q)
    ensures from <= e <= q && LazyEnd(s, from) == NonNull(e)
    ensures forall k :: e <= k < q ==> RegexSpace(s[k])
  {
    NoCloseBetweenMeans(s, from, q);
    SpacesThenClose(s, q, q);
    LazyEndIsFirst(s, from);
    e := LazyEnd(s, from).value;
    SpaceRunIsMaximal(s, e);
    assert e + SpaceRun(s, e) >= q;
  }

  /**
   Content made only of `\s` between the first opening tag and the only closing
   tag after it still matches: the group is one space, and the result is empty.
   */
  lemma RefineOfBlankContent(s: string, p: nat, q: nat)
    requires TagAt(s, p, OpenTag) && forall k :: 0 <= k < p ==> !TagAt(s, k, OpenTag)
    requires p + |OpenTag| < q && TagAt(s, q, CloseTag)
    requires forall k :: p + |OpenTag| <= k < q ==> RegexSpace(s[k])
    requires forall k :: p + |OpenTag| <= k <= |s| && k != q ==> !TagAt(s, k, CloseTag)
    ensures Refine(s) == ""
  {
    FindSkips(s, 0, p);
    MatchAtBlankContent(s, p, q);
    assert AllBlank(s[q - 1..q]);
    AllBlankTrimsAway(s[q - 1..q]);
  }

  lemma MatchAtBlankContent(s: string, p: nat, q: nat)
    requires TagAt(s, p, OpenTag)
    requires p + |OpenTag| < q && TagAt(s, q, CloseTag)
    requires forall k :: p + |OpenTag| <= k < q ==> RegexSpace(s[k])
    requires forall k :: p + |OpenTag| <= k <= |s| && k != q ==> !TagAt(s, k, CloseTag)
    ensures MatchAt(s, p) == NonNull((q - 1, q))
  {
    BlankGroup(s, p + |OpenTag|, q);
    MatchAtIsGreedy(s, p);
  }

  /** Only spaces from `a` up to the one closing tag at `q`: the greedy `\s*` gives back one space for the group. */
  lemma BlankGroup(s: string, a: nat, q: nat)
    requires a < q && TagAt(s, q, CloseTag)
    requires forall k :: a <= k < q ==> RegexSpace(s[k])
    requires forall k :: a <= k <= |s| && k != q ==> !TagAt(s, k, CloseTag)
    ensures GreedyThenLazy(s, a, SpaceRun(s, a)) == NonNull((q - 1, q))
  {
    SpacesThenClose(s, a, q);
    NoCloseAfter(s, q + 1);
    GreedyGivesBackOne(s, a, q - a);
    GroupBeforeClose(s, a, q);
  }

  /** With `k + 1` spaces before a closing tag at `q`, keeping `k` of them leaves a one-space group. */
  lemma GroupBeforeClose(s: string, a: nat, q: nat)
    requires a < q && TagAt(s, q, CloseTag) && a + SpaceRun(s, a) == q
    ensures GreedyThenLazy(s, a, q - a - 1) == NonNull((q - 1, q))
  {
    SpacesThenClose(s, q, q);
    assert LazyEnd(s, q) == NonNull(q);
  }

  /** When no group can follow `k` spaces, the greedy `\s*` tries `k - 1`. */
  lemma GreedyGivesBackOne(s: string, a: nat, k: nat)
    requires 0 < k && a + k <= |s| && k <= SpaceRun(s, a)
    requires a + k < |s| ==> LazyEnd(s, a + k + 1).Null?
    ensures GreedyThenLazy(s, a, k) == GreedyThenLazy(s, a, k - 1)
  {
  }

  lemma NoCloseAfter(s: string, from: nat)
    requires from <= |s|
    requires forall k :: from <= k <= |s| ==> !TagAt(s, k, CloseTag)
    ensures LazyEnd(s, from).Null?
  {
  }

  /** Text without the opening tag is returned as it is. */
  lemma RefineWithoutOpenTag(s: string)
    requires forall k :: 0 <= k <= |s| ==> !TagAt(s, k, OpenTag)
    ensures Refine(s) == s
  {
    FindSkips(s, 0, |s| + 1);
  }

  /** Text in which no closing tag comes after the content of an opening tag is returned as it is. */
  lemma RefineWithoutCloseTag(s: string)
    requires forall p, q :: TagAt(s, p, OpenTag) && TagAt(s, q, CloseTag) ==> q <= p + |OpenTag|
    ensures Refine(s) == s
  {
    NoMatchFrom(s, 0);
  }

  lemma {:induction false} NoMatchFrom(s: string, p: nat)
    requires forall p, q :: TagAt(s, p, OpenTag) && TagAt(s, q, CloseTag) ==> q <= p + |OpenTag|
    ensures FindFrom(s, p).Null?
    decreases |s| + 1 - p
  {
    if p <= |s| {
      NoMatchFrom(s, p + 1);
    }
  }
}

=== FILE: remote.dfy ===
/**
 The remote translation endpoint, seen from the code that calls it: the request
 it is sent and the reply it gives back. The HTTP client, its timeouts and the
 thread that waits on it are not part of this model; a call's result is a value.
 */
module Remote {
  import opened JavaText
  import Json

  /**
   What one call of the endpoint came to: a response (status code, body, error
   body; Retrofit gives a body only to 2xx responses and an error body only to
   the others), or an exception with its possibly-null message. An exception
   raised while reading the error body counts as `Failed` too.
   */
  datatype HttpReply =
    | Response(code: int, body: Nullable<string>, errorBody: Nullable<string>)
    | Failed(message: Nullable<string>)

  /** Retrofit's `isSuccessful`: a status in [200, 300). */
  predicate IsSuccessful(code: int) {
    200 <= code < 300
  }

  /** Whether a reply carries a successful body to work on. */
  predicate HasSuccessBody(reply: HttpReply) {
    reply.Response? && IsSuccessful(reply.code) && reply.body.NonNull?
  }

  /**
   The request both translation paths send: JSON headers with a bearer key, and a
   body naming the model, asking for no streaming, with one user message holding
   one `input_text` part.
   */
  datatype ApiRequest = ApiRequest(
    contentType: string,
    authorization: string,
    model: string,
    stream: bool,
    role: string,
    partType: string,
    text: string)

  /**
   The configuration a call needs: API key, model name, the two prompt texts
   (opaque here), and the library collaborators: JSON text handling and the MD5
   digest rendered as hex.
   */
  datatype Env = Env(
    apiKey: string,
    model: string,
    singlePrompt: string,
    batchPrompt: string,
    codec: Json.Codec,
    md5: string -> string)

  function BuildRequest(env: Env, text: string): (r: ApiRequest)
    ensures r.text == text && !r.stream
    ensures r.role == "user" && r.partType == "input_text"
    ensures r.authorization == "Bearer " + env.apiKey && r.model == env.model
  {
    ApiRequest("application/json", "Bearer " + env.apiKey, env.model, false, "user", "input_text", text)
  }

  /** The failure text for a reply without a usable body: prefix, status, then ` - ` and the error body when there is one. */
  function StatusFailure(prefix: string, code: int, errorBody: Nullable<string>): (r: string)
    ensures errorBody.Null? ==> r == prefix + Decimal(code)
    ensures errorBody.NonNull? ==> r == prefix + Decimal(code) + " - " + errorBody.value
  {
    var base := prefix + Decimal(code);
    if errorBody.NonNull? then base + " - " + errorBody.value else base
  }
}

=== FILE: translate_content.dfy ===
/**
 Translating one text: the request sent, the reading of the reply (the two
 envelopes and the refined-translation tag), the single outcome delivered, and
 the cache consulted before the call and written after a success.
 */
module TranslateContent {
  import opened JavaText
  import opened Json
  import opened Envelope
  import opened Remote
  import RefinedTag
  import TranslationCache

  /**
   `extractTranslation`: the envelope text with its refined-translation span taken
   out; the whole body when neither envelope holds text; null when the body is
   not a JSON object or a part of an envelope has the wrong kind.
   */
  function ExtractTranslation(c: Codec, responseBody: string): (r: Nullable<string>)
    ensures ParseObject(c, responseBody).Thrown? ==> r.Null?
    ensures ParseObject(c, responseBody).Ok? ==>
              var found := ResponseText(c, ParseObject(c, responseBody).value);
              && (found.Found? ==> r == NonNull(RefinedTag.Refine(found.text)))
              && (found.Absent? ==> r == NonNull(responseBody))
              && (found.Faulted? ==> r.Null?)
  {
    match ParseObject(c, responseBody)
    case Thrown => Null
    case Ok(response) =>
      match ResponseText(c, response)
      case Found(text) => NonNull(RefinedTag.Refine(text))
      case Absent => NonNull(responseBody)
      case Faulted => Null
  }

  /**
   When `output[0].content[0].text` is there, it alone decides the result: what
   `choices` holds does not matter. When the first path is missing a part, the
   second is read; when both are, the raw body is the result.
   */
  lemma ExtractTranslationByPaths(c: Codec, responseBody: string)
    requires ParseObject(c, responseBody).Ok?
    ensures var j := JObj(ParseObject(c, responseBody).value);
            Walk(j, OutputPath).Reached? ==>
              ExtractTranslation(c, responseBody) ==
                NonNull(RefinedTag.Refine(Coerce(c, Walk(j, OutputPath).value)))
    ensures var j := JObj(ParseObject(c, responseBody).value);
            Walk(j, OutputPath).Missing? && Walk(j, ChoicesPath).Reached? ==>
              ExtractTranslation(c, responseBody) ==
                NonNull(RefinedTag.Refine(Coerce(c, Walk(j, ChoicesPath).value)))
    ensures var j := JObj(ParseObject(c, responseBody).value);
            Walk(j, OutputPath).Missing? && Walk(j, ChoicesPath).Missing? ==>
              ExtractTranslation(c, responseBody) == NonNull(responseBody)
    ensures var j := JObj(ParseObject(c, responseBody).value);
            Walk(j, OutputPath).Mismatch? || (Walk(j, OutputPath).Missing? && Walk(j, ChoicesPath).Mismatch?) ==>
              ExtractTranslation(c, responseBody).Null?
  {
  }

  /** The outcome delivered to the listener: exactly one of success or failure. */
  datatype TextOutcome = TextTranslated(text: string) | TextFailed(message: string)

  /**
   The outcome `translate` posts for a reply: success only with a 2xx status, a
   body, and a non-empty extraction; otherwise the failure text for the case.
   */
  function DecideText(c: Codec, reply: HttpReply): (o: TextOutcome)
    ensures o.TextTranslated? <==>
              && HasSuccessBody(reply)
              && ExtractTranslation(c, reply.body.value).NonNull?
              && |ExtractTranslation(c, reply.body.value).value| > 0
    ensures o.TextTranslated? ==> o.text == ExtractTranslation(c, reply.body.value).value && |o.text| > 0
    ensures reply.Failed? ==> o == TextFailed("Error: " + Show(reply.message))
    ensures reply.Response? && !HasSuccessBody(reply) ==>
              o == TextFailed(StatusFailure("Translation failed: ", reply.code, reply.errorBody))
    ensures HasSuccessBody(reply) && o.TextFailed? ==>
              o.message == "Could not extract translation from response"
  {
    match reply
    case Failed(message) => TextFailed("Error: " + Show(message))
    case Response(code, body, errorBody) =>
      if IsSuccessful(code) && body.NonNull? then
        var translated := ExtractTranslation(c, body.value);
        if translated.NonNull? && |translated.value| > 0 then TextTranslated(translated.value)
        else TextFailed("Could not extract translation from response")
      else TextFailed(StatusFailure("Translation failed: ", code, errorBody))
  }

  /** The request for one text: the prompt followed by the text (`"null"` for a null text). */
  function TextRequest(env: Env, text: Nullable<string>): (r: ApiRequest)
    ensures r.text == env.singlePrompt + Show(text) && !r.stream && r.role == "user"
  {
    BuildRequest(env, env.singlePrompt + Show(text))
  }

  /** What one call of `translateWithCache` comes to: the outcome, the request sent if any, and the cache after it. */
  datatype TextRun = TextRun(outcome: TextOutcome, request: Nullable<ApiRequest>, cache: TranslationCache.Cache)

  /**
   `translateWithCache`: a cached translation is delivered with no request; otherwise
   the request is sent, and a success is stored before it is delivered. A failure
   leaves the cache as it was.
   */
  function TranslateWithCache(env: Env, cache: TranslationCache.Cache, text: Nullable<string>, reply: HttpReply): (r: TextRun)
    ensures var hit := if NullOrEmpty(text) then Null else TranslationCache.Stored(env.md5, cache, text.value);
            && (hit.NonNull? ==> r.request.Null? && r.outcome == TextTranslated(hit.value))
            && (hit.NonNull? ==> r.cache == TranslationCache.Get(env.md5, cache, text).1)
            && (hit.Null? ==> r.request == NonNull(TextRequest(env, text)) && r.outcome == DecideText(env.codec, reply))
            && (hit.Null? && r.outcome.TextFailed? ==> r.cache == cache)
            && (hit.Null? && r.outcome.TextTranslated? ==>
                  r.cache == TranslationCache.Put(env.md5, cache, text, NonNull(r.outcome.text)))
    ensures TranslationCache.Valid(cache) ==> TranslationCache.Valid(r.cache)
    ensures TranslationCache.Valid(cache) && r.outcome.TextTranslated? ==> |r.outcome.text| > 0
  {
    var (hit, afterGet) := TranslationCache.Get(env.md5, cache, text);
    if hit.NonNull? then TextRun(TextTranslated(hit.value), Null, afterGet)
    else
      var outcome := DecideText(env.codec, reply);
      var request := NonNull(TextRequest(env, text));
      match outcome
      case TextTranslated(translated) =>
        TextRun(outcome, request, TranslationCache.Put(env.md5, afterGet, text, NonNull(translated)))
      case TextFailed(_) => TextRun(outcome, request, afterGet)
  }

  /**
   Once a text has been translated, asking again for the same text is answered
   from the cache: no request, the same translation, whatever the endpoint would say.
   */
  lemma RepeatedTextIsServedFromCache(env: Env, cache: TranslationCache.Cache, text: string, reply: HttpReply, again: HttpReply)
    requires TranslationCache.Valid(cache) && |text| > 0
    requires TranslateWithCache(env, cache, NonNull(text), reply).outcome.TextTranslated?
    ensures var first := TranslateWithCache(env, cache, NonNull(text), reply);
            var second := TranslateWithCache(env, first.cache, NonNull(text), again);
            second.request.Null? && second.outcome == first.outcome
  {
    var first := TranslateWithCache(env, cache, NonNull(text), reply);
    var t := first.outcome.text;
    if TranslationCache.Stored(env.md5, cache, text).NonNull? {
      TranslationCache.GetKeepsStored(env.md5, cache, text, text);
    } else {
      TranslationCache.GetAfterPut(env.md5, cache, text, t);
    }
  }
}

=== FILE: translation_cache.dfy ===
/**
 The in-memory translation cache: a least-recently-used store of at most 500
 entries, keyed by the MD5 digest of the original text. Null or empty inputs
 make `get` and `put` do nothing.

 The digest is the parameter `md5`; where two different texts must not share an
 entry, lemmas ask for it to be injective.
 */
module TranslationCache {
  import opened JavaText
  import LruStore

  const MaxEntries: nat := 500

  type Cache = LruStore.Lru

  /** The cache as constructed: empty, bounded by 500 entries. */
  function New(): (c: Cache)
    ensures Valid(c) && Size(c) == 0
  {
    LruStore.Lru(MaxEntries, [])
  }

  /** A reachable cache: the store's shape, the 500-entry bound, and no empty translation stored. */
  ghost predicate Valid(c: Cache) {
    && LruStore.Valid(c)
    && c.maxSize == MaxEntries
    && forall e :: e in c.entries ==> |e.value| > 0
  }

  ghost predicate Injective(md5: string -> string) {
    forall a, b :: md5(a) == md5(b) ==> a == b
  }

  /** The translation stored for `text`, looked up without touching recency. */
  function Stored(md5: string -> string, c: Cache, text: string): Nullable<string> {
    LruStore.Lookup(c.entries, md5(text))
  }

  /** `get`: null or empty text answers null and leaves the cache alone; otherwise a store lookup. */
  function Get(md5: string -> string, c: Cache, text: Nullable<string>): (r: (Nullable<string>, Cache))
    ensures NullOrEmpty(text) ==> r == (Null, c)
    ensures !NullOrEmpty(text) ==> r.0 == Stored(md5, c, text.value)
    ensures r.0.Null? ==> r.1 == c
    ensures Valid(c) ==> Valid(r.1) && Size(r.1) == Size(c)
    ensures Valid(c) && r.0.NonNull? ==> |r.0.value| > 0
  {
    if NullOrEmpty(text) then (Null, c)
    else LruStore.Get(c, md5(text.value))
  }

  /**
   `put`: a null or empty original or translation is ignored. Otherwise the text's
   entry is overwritten without growing the cache, or added; a new text arriving at a full
   cache evicts exactly the least recently used entry.
   */
  function Put(md5: string -> string, c: Cache, text: Nullable<string>, translated: Nullable<string>): (r: Cache)
    ensures NullOrEmpty(text) || NullOrEmpty(translated) ==> r == c
    ensures Valid(c) ==> Valid(r)
    ensures Valid(c) && !NullOrEmpty(text) && !NullOrEmpty(translated) ==>
              && (Stored(md5, c, text.value).NonNull? ==> Size(r) == Size(c))
              && (Stored(md5, c, text.value).NonNull? ==>
                    r.entries == LruStore.Remove(c.entries, md5(text.value)) + [LruStore.Entry(md5(text.value), translated.value)])
              && (Stored(md5, c, text.value).Null? && Size(c) < MaxEntries ==> Size(r) == Size(c) + 1)
              && (Stored(md5, c, text.value).Null? && Size(c) < MaxEntries ==>
                    r.entries == c.entries + [LruStore.Entry(md5(text.value), translated.value)])
              && (Stored(md5, c, text.value).Null? && Size(c) == MaxEntries ==>
                    r.entries == c.entries[1..] + [LruStore.Entry(md5(text.value), translated.value)])
  {
    if NullOrEmpty(text) || NullOrEmpty(translated) then c
    else LruStore.Put(c, md5(text.value), translated.value)
  }

  /** `clear`: the cache forgets every entry. */
  function Clear(c: Cache): (r: Cache)
    ensures Valid(c) ==> Valid(r)
    ensures Size(r) == 0
    ensures forall md5: string -> string, text :: Get(md5, r, text).0.Null?
  {
    LruStore.EvictAll(c)
  }

  /** `size`: the number of entries, which never exceeds 500. */
  function Size(c: Cache): (n: nat)
    ensures Valid(c) ==> n <= MaxEntries
  {
    |c.entries|
  }

  /** After `put(t, v)`, `get(t)` answers v: equal texts share one entry. */
  lemma GetAfterPut(md5: string -> string, c: Cache, text: string, translated: string)
    requires Valid(c) && |text| > 0 && |translated| > 0
    ensures Get(md5, Put(md5, c, NonNull(text), NonNull(translated)), NonNull(text)).0 == NonNull(translated)
  {
    LruStore.PutContents(c, md5(text), translated, md5(text));
  }

  /** A `get` changes recency only: every text keeps its stored translation. */
  lemma GetKeepsStored(md5: string -> string, c: Cache, text: string, other: string)
    requires Valid(c)
    ensures Stored(md5, Get(md5, c, NonNull(text)).1, other) == Stored(md5, c, other)
  {
    if |text| > 0 {
      LruStore.GetKeepsContents(c, md5(text), md5(other));
    }
  }

  /**
   A put leaves every other text's translation in place, unless it adds a new text
   to a full cache, in which case only the least recently used entry goes.
   */
  lemma PutKeepsOtherTexts(md5: string -> string, c: Cache, text: string, translated: string, other: string)
    requires Valid(c) && Injective(md5) && |text| > 0 && |translated| > 0 && other != text
    requires Stored(md5, c, text).NonNull? || Size(c) < MaxEntries
    ensures Stored(md5, Put(md5, c, NonNull(text), NonNull(translated)), other) == Stored(md5, c, other)
  {
    LruStore.PutContents(c, md5(text), translated, md5(other));
  }

  /**
   A hit moves its entry to the most recent end and keeps every other entry in its
   old order, so the cache keeps its shape and size.
   */
  lemma HitBecomesMostRecent(md5: string -> string, c: Cache, text: string)
    requires Valid(c) && |text| > 0
    requires Stored(md5, c, text).NonNull?
    ensures var c1 := Get(md5, c, NonNull(text)).1;
            && Valid(c1) && Size(c1) == Size(c)
            && c1.entries == LruStore.Remove(c.entries, md5(text)) + [LruStore.Entry(md5(text), Stored(md5, c, text).value)]
  {
    var c1 := Get(md5, c, NonNull(text)).1;
    assert c1.entries == c1.entries[..|c1.entries| - 1] + [c1.entries[|c1.entries| - 1]];
  }

  /**
   A hit refreshes recency: an entry just read survives the eviction caused by
   the next new text put into a full cache.
   */
  lemma HitSurvivesNextEviction(md5: string -> string, c: Cache, text: string, other: string, translated: string)
    requires Valid(c) && Size(c) == MaxEntries
    requires |text| > 0 && |other| > 0 && |translated| > 0 && other != text
    requires Stored(md5, c, text).NonNull? && Stored(md5, c, other).Null?
    ensures Get(md5, Put(md5, Get(md5, c, NonNull(text)).1, NonNull(other), NonNull(translated)), NonNull(text)).0
            == Stored(md5, c, text)
  {
    var c1 := Get(md5, c, NonNull(text)).1;
    HitBecomesMostRecent(md5, c, text);
    GetKeepsStored(md5, c, text, other);
    assert LruStore.KeyAbsent(c1.entries, md5(other));
    assert c1.entries[|c1.entries| - 1] == LruStore.Entry(md5(text), Stored(md5, c, text).value);
    LruStore.RecentSurvivesEviction(c1, md5(other), translated);
  }
}
